=== FILE: README.md ===
# DevEvents write path, modelled in Dafny

DevEvents is a Next.js application that lists developer events and lets
people create events and book places at them. This project models the
logic that decides what gets stored, and proves properties of it:

- **Event documents** (`event_model.dfy`, module `EventModel`). Covers the
  slug derived from a title, the normalisation of a time to 24-hour `HH:MM`,
  the required-field guards, and the pre-save hook that runs them in order.
  The hook is a method on an `EventDocument` class whose attributes it
  updates in place.
- **Booking documents** (`booking_model.dfy`, module `BookingModel`). Covers
  the email pattern, decided by a matcher proved equal to the pattern's
  language, and the pre-save hook that checks the email and then looks up
  the referenced event.
- **The booking server action** (`booking_actions.dfy`, module
  `BookingActions`). Covers how `createBooking` maps the connection, the
  hook and the insert to the `{ success, error }` object the booking form
  reads.
- **The `/api/events` route** (`events_route.dfy`, module `EventsRoute`).
  - POST reads a JSON or form body into a record and unquotes `mode`, `time`
    and `date`.
  - A loop coerces `agenda` and `tags` to lists.
  - POST then checks the image, parses the raw list fields, uploads, and
    hands the document to `Event.create`.
  - GET returns the events newest first.
- **The create-event form** (`create_event_form.dfy`, module
  `CreateEventForm`). Covers `splitList` and the `FormData` payload it
  sends. The proofs show the route reads the payload's lists back exactly.
- **The home page** (`home_page.dfy`, module `HomePage`). Covers the choice
  of the base URL and its normalisation.
- **Support modules.**
  - `wrappers.dfy` (`Wrappers`): `Option`, `Result` and `Outcome`.
  - `mongodb.dfy` (`MongoDb`): the error calling the undefined default import of lib/mongodb.ts throws.
  - `text.dfy` (`Text`): JavaScript's `trim`, ASCII `toLowerCase`,
    `includes`, `split` and `join`.
  - `json.dfy` (`Json`): a parser for JSON text as `JSON.parse` accepts it,
    and `JSON.stringify` of an array of strings, with the round trip
    `Parse(StringifyStrings(xs)) == Some(StringArray(xs))` proved for every
    list of strings.

External effects are parameters of the operations that meet them. These
are:

- how the database connection ends;
- the Cloudinary settings and how the upload ends;
- how `Event.create` and the booking insert end;
- the date normaliser.

A thrown error becomes an `Err`/`Fail` value carrying its message, and the
model follows each `catch` explicitly.

## Model

| member | source | states |
|---|---|---|
| EventModel.Slugify | database/event.model.ts:22-27 | the slug is one or more runs of `[a-z0-9]` joined by single hyphens, with no hyphen at either end, or empty; where the hyphens go is pinned by `SlugJoinsWords` for lower-case words, and by `SlugifyLower` with it for any case |
| EventModel.SlugifyLower | database/event.model.ts:22-27 | a title and its lower-cased form have the same slug, so "Hello World" slugs as "hello world" does |
| EventModel.SlugJoinsWords | database/event.model.ts:22-27 | two slugs around any non-empty run of characters that are not letters or digits (spaces, `&`, underscores, hyphens) are joined by exactly one hyphen: `Slugify(a + sep + b) == a + "-" + b` |
| EventModel.SlugKeepsAlnums | database/event.model.ts:22-27 | the slug holds exactly the ASCII letters and digits of the lower-cased title, in order |
| EventModel.SlugEmptyIff | database/event.model.ts:22-27 | the slug is empty exactly when the title has no ASCII letter or digit |
| EventModel.SlugifyOfSlug | database/event.model.ts:22-27 | a well-formed slug is its own slug |
| EventModel.SlugifyIdempotent | database/event.model.ts:22-27 | deriving a slug from a slug changes nothing |
| EventModel.Match24Iff | database/event.model.ts:40 | the 24-hour matcher succeeds exactly on the pattern's language: an hour of one or two digits up to 23, a colon, and two-digit minutes up to 59 |
| EventModel.Match12Iff | database/event.model.ts:45 | the 12-hour matcher succeeds exactly on the pattern's language: an hour from 1 to 12 (optionally zero-padded), a colon, two-digit minutes, optional whitespace, and am or pm in any case |
| EventModel.NormalizeTime | database/event.model.ts:38-55 | a failure is "Invalid time format"; a success is `HH:MM` with the hour 00-23 and the minutes 00-59 |
| EventModel.NormalizeTimeAcceptsIff | database/event.model.ts:38-48 | normalisation succeeds exactly when the trimmed input matches one of the two patterns |
| EventModel.TwentyFourHourTime | database/event.model.ts:39-43 | a 24-hour time, padded by any whitespace, comes back with a two-digit hour and the same minutes |
| EventModel.TwelveHourTime | database/event.model.ts:45-54 | a 12-hour time comes back on the 24-hour clock (12 am is 00, 12 pm is 12, h pm is h + 12), with the same minutes |
| EventModel.NormalizeTime12 | database/event.model.ts:50-54 | the 12-hour branch returns the two-digit 24-hour reading of the captured hour and meridiem |
| EventModel.Mod12Hour | database/event.model.ts:53 | `hour % 12`, plus 12 after noon, equals the 24-hour reading of a 12-hour hour |
| EventModel.NormalizeTimeOfClockTime | database/event.model.ts:39-43 | a canonical `HH:MM` is returned unchanged |
| EventModel.NormalizeTimeIdempotent | database/event.model.ts:38-55 | normalising a normalised time changes nothing |
| EventModel.RequireNonEmptyString | database/event.model.ts:57-61 | fails with "<field> is required" exactly when the value is blank after trimming |
| EventModel.RequireNonEmptyArray | database/event.model.ts:63-67 | passes exactly when the list has an entry, else fails with "<field> is required" |
| EventModel.Check | database/event.model.ts:94-106 | one guard fails with "<name> is required" exactly when its field is missing |
| EventModel.CheckAll | database/event.model.ts:94-106 | the guards run in order and the first failing one decides; `CheckAllReportsFirst` states this for every list of guards |
| EventModel.CheckAllReportsFirst | database/event.model.ts:94-106 | a run of guards reports the first missing field and passes when none is missing |
| EventModel.CheckRequiredReportsFirst | database/event.model.ts:94-106 | the hook's guards report the first missing field in source order (Title … Tags) |
| EventModel.CheckRequiredPasses | database/event.model.ts:94-106 | the guards pass exactly when all eleven strings are non-blank and both lists are non-empty |
| EventModel.PreSaveEffect | database/event.model.ts:91-121 | the hook's effect on the attributes and its verdict, as a function; its properties are `PreSaveVerdict`, `PreSaveAttributes`, `PreSaveSlug` and `PreSaveIdempotent` |
| EventModel.PreSaveVerdict | database/event.model.ts:91-121 | the hook reports the first missing field, else "Invalid date format", else "Invalid time format" when the time matches neither pattern, else succeeds |
| EventModel.PreSaveAttributes | database/event.model.ts:108-115 | on success the date is the normaliser's, the time is canonical `HH:MM`, the slug is derived from the title only when the title was modified, and every other attribute is unchanged; a failure changes at most the date |
| EventModel.PreSaveSlug | database/event.model.ts:112-115 | a slug derived on save is well formed |
| EventModel.PreSaveIdempotent | database/event.model.ts:91-121 | saving a saved document again succeeds and changes nothing, for a date normaliser that maps its own output to itself and never yields a blank date |
| EventModel.EventDocument.PreSave | database/event.model.ts:91-121 | the hook updates the document's attributes in place and returns the verdict `PreSaveEffect` gives for the old attributes |
| EventModel.SaveAsWritten | database/event.model.ts:69-121 | `save()` as written: the slug's `required` validator runs before the hook, so a missing slug is refused with the ValidationError "Event validation failed: slug: Path `slug` is required." and the hook never runs; `NewEventRefusedAsWritten` states the consequence |
| EventModel.SaveCorrected | database/event.model.ts:69-121 | `save()` with the hook's slug derived before the slug's validator; `NewEventSavesCorrected` and `SaveCorrectedAgrees` state its properties |
| EventModel.NewEventRefusedAsWritten | database/event.model.ts:72 | a new event with no slug is refused with the ValidationError "Event validation failed: slug: Path `slug` is required." even when the hook would derive a well-formed slug |
| EventModel.NewEventSavesCorrected | database/event.model.ts:69-121 | with the slug derived before validation, a new event is stored exactly when the hook accepts it and the title has an ASCII letter or digit, and it is stored with the title's slug |
| EventModel.SaveCorrectedAgrees | database/event.model.ts:69-121 | for a document that has a slug and an unchanged title, the corrected order decides exactly as the written one |
| BookingModel.FirstAt | database/booking.model.ts:11 | the index of the first `@`, with no `@` before it, or none when there is no `@`; `IsEmail` splits an email there |
| BookingModel.IsEmail | database/booking.model.ts:11 | the matcher for the email pattern; `IsEmailIff` proves it accepts exactly the pattern's language and `AcceptedEmail` what every accepted email looks like |
| BookingModel.IsEmailIff | database/booking.model.ts:11 | the matcher accepts exactly the language of `^[^\s@]+@[^\s@]+\.[^\s@]+$` |
| BookingModel.AcceptedEmail | database/booking.model.ts:11 | an accepted email has no whitespace and exactly one '@' |
| BookingModel.EventStore.Exists | database/booking.model.ts:31 | the lookup answers whether the id belongs to a stored event, leaves the stored ids alone and records the query it was asked |
| BookingModel.BookingDocument.PreSave | database/booking.model.ts:23-40 | a malformed email fails with "Invalid email format" and queries the store not at all; a matching email queries the store exactly once, for the booking's event id; a missing event fails with "Referenced event does not exist"; the hook passes exactly when the email matches and the event exists |
| BookingActions.CatchResult | lib/actions/booking.actions.ts:10-16 | every caught error is a failure, with the duplicate-booking message exactly for code 11000 |
| BookingActions.BookingStore.Insert | lib/actions/booking.actions.ts:8 | a successful insert appends the booking, and a failed one leaves the store unchanged |
| BookingActions.BookingResult | lib/actions/booking.actions.ts:5-17 | the `{ success, error }` object for how the connection, the hook and the insert end; `BookingResultMeaning` and `RejectedBookingIsBare` state its properties |
| BookingActions.Create | lib/actions/booking.actions.ts:8 | `Booking.create` on a trimmed email: the hook's rejection is a failure with no code and leaves the bookings alone; for an accepted booking the insert decides, and a stored booking is appended; the events are queried exactly when the email matches |
| BookingActions.CreateBooking | lib/actions/booking.actions.ts:5-17 | the result is the one `BookingResult` gives for the connection, the hook's verdict on the trimmed email and the insert; the store grows by that booking exactly on success; the events are queried once, for the event id, exactly when the connection succeeds and the trimmed email matches |
| BookingActions.BookingResultMeaning | lib/actions/booking.actions.ts:5-17 | success exactly when the connection, the hook and the insert all succeed; an error message appears exactly for a duplicate-key code |
| BookingActions.RejectedBookingIsBare | lib/actions/booking.actions.ts:14-15 | a booking its own hook rejects comes back as `{ success: false }` with no message |
| BookingActions.CreateBookingAsWritten | lib/actions/booking.actions.ts:2-7 | with the default imports as written, `connectDB` is undefined and `await connectDB()` throws a `TypeError` without a code, so every booking gets `{ success: false }` with no message |
| EventsRoute.Unquote | app/api/events/route.ts:47 | the result has no surrounding whitespace and is no longer than the input |
| EventsRoute.UnquoteQuoted | app/api/events/route.ts:47 | a double-quoted trimmed text, padded by whitespace, comes back as the text between the quotes |
| EventsRoute.StripQuotesOf | app/api/events/route.ts:47 | the quote pattern removes one leading and one trailing double quote |
| EventsRoute.UnquoteBare | app/api/events/route.ts:47 | a trimmed value that neither starts nor ends with a quote is unchanged |
| EventsRoute.LastWins | app/api/events/route.ts:38 | the record's keys are exactly the entries' names |
| EventsRoute.LastWinsValue | app/api/events/route.ts:38 | a key holds the value of the last entry with that name |
| EventsRoute.FormGet | app/api/events/route.ts:92 | get finds nothing exactly when no entry has the name |
| EventsRoute.FormGetFirst | app/api/events/route.ts:92 | get returns the first entry with the name |
| EventsRoute.FormGetAgrees | app/api/events/route.ts:38 | for a name that occurs once, get and the record built from the entries agree |
| EventsRoute.LowerField | app/api/events/route.ts:49-51 | a string mode is replaced by its unquoted lower-case form, and anything else is left alone |
| EventsRoute.UnquoteField | app/api/events/route.ts:53-59 | a string time or date is replaced by its unquoted form, and anything else is left alone |
| EventsRoute.CoerceField | app/api/events/route.ts:63-82 | one turn of the loop replaces a string list field by the list it coerces to |
| EventsRoute.NormalizeEvent | app/api/events/route.ts:46-83 | the normalisation steps, with the loop over `agenda` and `tags`, produce the record `NormalizeRecord` specifies |
| EventsRoute.NormalizeRecordFrame | app/api/events/route.ts:46-83 | normalisation keeps the set of keys, and leaves unchanged every value that is not a string and every key other than the five it handles |
| EventsRoute.NormalizeRecordScalars | app/api/events/route.ts:49-59 | a string mode, time or date ends up unquoted, and mode also lower-cased |
| EventsRoute.NormalizeRecordLists | app/api/events/route.ts:61-83 | a string `agenda` or `tags` ends up as the list it coerces to, or unchanged when it coerces to none |
| EventsRoute.NormalizedMode | app/api/events/route.ts:50 | a normalised mode has no surrounding whitespace and no upper-case ASCII letter |
| EventsRoute.CoerceList | app/api/events/route.ts:63-82 | a list field's text as the JSON array it parses to, else its trimmed non-empty comma-separated pieces when it holds a comma, else the one trimmed value when that is non-empty, else nothing (the field is left as it is); `CoerceListShape`, `CoerceListOfStringify` and `CoerceListOfJoin` state its properties |
| EventsRoute.CoerceListShape | app/api/events/route.ts:64-82 | a value is left alone exactly when it is blank and not a JSON array; comma-split pieces are non-empty, trimmed and comma-free |
| EventsRoute.CoerceListOfStringify | app/api/events/route.ts:66-73 | a JSON array of strings sent as text coerces to that list |
| EventsRoute.CoerceListOfJoin | app/api/events/route.ts:74-78 | items joined with commas coerce back to the same items |
| EventsRoute.KindOf | app/api/events/route.ts:27-44 | a content type that includes `application/json` is JSON; else one including `multipart/form-data` or `application/x-www-form-urlencoded` is a form; anything else, or none, is unsupported; `MultipartIsForm` applies it to a browser's form |
| EventsRoute.ReadBody | app/api/events/route.ts:27-44 | a failure is an "Event creation failed" response with status 400 or 415; 415 ("Unsupported Content-Type") exactly when the header, or the empty string when it is absent, includes none of the three content types; a JSON body is read exactly when it parses to something other than `null`, into its object's record; a form body is read exactly when `formData()` succeeds, and then the entries are kept and the record is `Object.fromEntries` of them, while a failed read's message is the response's error |
| EventsRoute.MultipartIsForm | app/api/events/route.ts:27-38 | the content type a browser gives a `FormData` body is read as a form |
| EventsRoute.ParseField | app/api/events/route.ts:97-98 | `JSON.parse` of a form field: the parsed value of its text, a `SyntaxError` for text that is not JSON; `ParseFieldSpecial` covers the absent field and the file |
| EventsRoute.ParseFieldSpecial | app/api/events/route.ts:97-98 | an absent field parses as `null`, and a file field throws |
| EventsRoute.HasImage | app/api/events/route.ts:92-95 | the image check: the entry is present and is a non-empty text or a file |
| EventsRoute.ReachesUpload | app/api/events/route.ts:85-101 | the request gets as far as the upload: connected, configured, a form body read without error, an image that is a file, and `tags` and `agenda` that both parse; `Post` is proved to upload exactly then |
| EventsRoute.CreateArgument | app/api/events/route.ts:110-116 | the record handed to `Event.create`: the normalised record with the image's URL and the parsed tags and agenda; `CreateArgumentFields` and `CreateArgumentLists` state its properties |
| EventsRoute.CreateArgumentFields | app/api/events/route.ts:110-116 | the created document carries the uploaded URL and the raw tags and agenda as parsed |
| EventsRoute.CreateArgumentLists | app/api/events/route.ts:97-116 | lists sent as JSON arrays of strings reach `Event.create` unchanged |
| EventsRoute.Post | app/api/events/route.ts:18-122 | statuses 201/400/415/500; 500 exactly when connected but Cloudinary is not configured; a failed connection, an unreadable body, a failed upload and a failed creation each give the catch-all 400 with that error's message; a JSON body gives 400 "Multipart form-data required for image upload"; an unsupported type gives 415; a form body gets the verdict `FormVerdict` states; the upload is attempted exactly when `ReachesUpload` holds; creation is attempted exactly after a successful upload, with `CreateArgument`; 201 exactly when creation succeeds |
| EventsRoute.PostForm | app/api/events/route.ts:92-121 | the response is the one `FormVerdict` gives: "Image is required." when the image entry is absent or empty, then the catch-all 400 for a list that does not parse, a text image, a failed upload or a failed creation, else 201 "Event created successfully"; the upload is attempted exactly when the image is a file and both lists parse, and creation exactly after a successful upload |
| EventsRoute.NewestFirstCons | app/api/events/route.ts:128 | an event no older than the head of a newest-first list can be put in front of it |
| EventsRoute.InsertNewestFirst | app/api/events/route.ts:128 | inserting into a newest-first list keeps it newest first and adds exactly the one event |
| EventsRoute.SortNewestFirst | app/api/events/route.ts:128 | the result is ordered by descending creation time and is a permutation of the input |
| EventsRoute.PostAsWritten | app/api/events/route.ts:18-121 | with the default import of `connectDB` as written (line 2), every request gets the catch-all 400 with the `TypeError`'s message, and nothing is uploaded or created |
| EventsRoute.GetAsWritten | app/api/events/route.ts:124-133 | with the default import of `connectDB` as written (line 2), every request gets status 500 and no events |
| EventsRoute.Get | app/api/events/route.ts:124-134 | on success the events newest first (a permutation of what is stored) with status 200, else status 500 with no events |
| Json.StringifyRoundTrip | components/CreateEventForm.tsx:57-58 | parsing `JSON.stringify` of any list of strings gives back that list |
| CreateEventForm.SplitList | components/CreateEventForm.tsx:20-24 | split at commas and line breaks, trim, drop empty pieces; its properties are `SplitListItems`, `SplitListEmptyIff`, `SplitListOrder`, `SplitListOfJoin` and `SplitListIdempotent` |
| CreateEventForm.SplitListItems | components/CreateEventForm.tsx:20-24 | every item is non-empty, trimmed, and free of commas and line breaks; there are at most separators + 1 items |
| CreateEventForm.SplitListEmptyIff | components/CreateEventForm.tsx:20-24 | the list is empty exactly when the text holds only commas and whitespace |
| CreateEventForm.SplitListOrder | components/CreateEventForm.tsx:20-24 | splitting at a separator gives the items before it followed by those after it |
| CreateEventForm.SplitListOfJoin | components/CreateEventForm.tsx:20-24 | items written one per line, or comma-separated, come back as they were |
| CreateEventForm.SplitListIdempotent | components/CreateEventForm.tsx:20-24 | splitting the list written back with commas changes nothing |
| CreateEventForm.ListField | components/CreateEventForm.tsx:57-58 | the form field for a list: `JSON.stringify` of `splitList` of the text; `ListFieldReadBack` proves the route reads it back |
| CreateEventForm.ListFieldReadBack | components/CreateEventForm.tsx:57-58 | the route reads the sent list back exactly, both from the raw field and from the normalised record |
| CreateEventForm.Payload | components/CreateEventForm.tsx:52-59 | the `FormData` entries: the form's fields, then tags and agenda as list fields, then the image file; `PayloadFields` and `PayloadReachesCreate` state its properties |
| CreateEventForm.PayloadFields | components/CreateEventForm.tsx:52-59 | in the payload, get finds the two lists and the image the form set |
| CreateEventForm.PayloadReachesCreate | components/CreateEventForm.tsx:52-59 | a form payload, when the route is configured and connected, reaches the upload; `Event.create` receives the lists exactly as `splitList` made them, and the uploaded URL |
| HomePage.BaseUrl | app/page.tsx:6 | the public setting when it is non-empty, else the Vercel setting; a non-empty value exactly when one of them is |
| HomePage.NormalizeBaseUrl | app/page.tsx:8-18 | the result always has an http(s) scheme; the local URL when unset; otherwise it ends with the configured value |
| HomePage.NormalizeBaseUrlKeeps | app/page.tsx:8-18 | a value with a scheme is kept, and one without gets `https://` in front |
| HomePage.NormalizeBaseUrlIdempotent | app/page.tsx:8-18 | normalising a normalised URL changes nothing |

## Left out

- `Text.ToLower` lower-cases ASCII letters only; JavaScript's `toLowerCase` also maps other Unicode letters. The slug keeps only `[a-z0-9]`, so for slugs this matters only where a non-ASCII letter lower-cases to an ASCII one.
- `Json.Parse` rejects `\u` escapes that denote a UTF-16 surrogate. `JSON.parse` accepts them, but a Dafny `char` cannot hold a lone surrogate.
- `normalizeDate` (database/event.model.ts:29-36) is a parameter, a partial function `string -> Option<string>`, because `Date` parsing and `toISOString` are the JavaScript engine's.
- `EventModel.PreSaveIdempotent` assumes that the date normaliser maps its own output to itself and never yields a blank date; a `Date`-based normaliser that round-trips ISO strings has both properties, but the model does not prove it.
- Mongoose's casting, the schema's `trim` setters (except the booking email's), the unique index on `slug`, and the timestamps are not modelled.
- `EventModel.SaveAsWritten` models only the slug's `required` validator. Mongoose's `required` on a String path also rejects the empty string, and the `trim` setters turn a whitespace-only string into the empty one, so through `save()` a blank title, description and so on is refused by Mongoose's own validation ("Path `title` is required.", inside a ValidationError message that lists every failing path) before the hook's blank-string guards (database/event.model.ts:94-106) run; `SaveAsWritten` reports the hook's "Title is required" instead. The list guards are still reached, because an empty array passes Mongoose's `required`.
- `EventModel.RequireNonEmptyArray` does not model the `Array.isArray` test, because the model's lists are always lists.
- `ObjectId` casting of the booking's `eventId` is not modelled; an event id is a string.
- `connectToDatabase` (lib/mongodb.ts:22-38) is not modelled: how the connection ends is a parameter, `connect: Outcome<Thrown>`. Its `Pass` case assumes the route and the action reach `connectToDatabase`. As written they do not: their default imports of `connectDB` (app/api/events/route.ts:2, lib/actions/booking.actions.ts:3) are undefined, which `PostAsWritten`, `GetAsWritten` and `CreateBookingAsWritten` model (see Findings).
- database/index.ts, from which the route imports `Event`, is not part of this model; `Event.create` and `Event.find` are parameters.
- The Cloudinary configuration and the upload stream are not modelled. The upload is a parameter that ends with the secure URL or an error; the file's bytes are not modelled.
- `EventsRoute.Post` uses placeholder messages for the `SyntaxError` and `TypeError` texts the JavaScript engine produces. These cover invalid JSON, a `null` JSON body, a text value under `image` and calling the undefined `connectDB`. Only the status and the "Event creation failed" message are the source's own.
- `EventsRoute.Post` does not model the created document in the 201 body. What `Event.create` does with its argument (validation, the hooks, storage) is the `create` parameter.
- `EventsRoute.Get` does not model the `error: e` object in the 500 response, and leaves the order of events with equal `createdAt` unspecified.
- `BookingActions.CreateBooking` drops the `slug` argument it passes to `Booking.create`, because the booking schema has no such path and Mongoose discards it.
- `console.log` and `console.error` calls are not modelled.
- The React state, the form's own image check (components/CreateEventForm.tsx:47-50), `fetch`, the router, PostHog, and the rendering of every page are not modelled.
- `EventModel.EventDocument` keeps the attributes in one record field rather than one field per attribute.

## Findings

| source | as written | input that shows it | evidently intended | confidence | as-written member | corrected member |
|---|---|---|---|---|---|---|
| lib/actions/booking.actions.ts:2-3 | both imports take a default export that does not exist: `connectDB` (lib/mongodb.ts:22 exports only `connectToDatabase`, by name) and `Booking` (database/booking.model.ts:43-45 exports it only by name), so `await connectDB()` at line 7 throws a `TypeError` with no code before `Booking.create` is reached | any booking, e.g. a valid email for an existing event: the action returns `{ success: false }` | import `{ connectToDatabase as connectDB }` and `{ Booking }` by name; only with both does the action book the place and report success | medium, not executed | BookingActions.CreateBookingAsWritten | BookingActions.CreateBooking |
| app/api/events/route.ts:2 | `import connectDB from "@/lib/mongodb"` takes a default export that lib/mongodb.ts:22 does not provide, so `await connectDB()` (lines 20 and 126) throws a `TypeError` | any POST, e.g. the form's valid multipart payload: the catch-all 400 (lines 118-121); any GET: status 500 (line 132) | import `{ connectToDatabase as connectDB }`, so POST reaches the upload and `Event.create` and GET lists the events newest first; creating a new event also needs the fix to database/event.model.ts:72 below | medium, not executed | EventsRoute.PostAsWritten | EventsRoute.Post |
| database/event.model.ts:72 | `slug` is `required`, and Mongoose validates before the `pre("save")` hook that derives the slug from the title, so the slug the hook would set is never seen by the validator | a new event with every field valid and no slug, which is what POST /api/events sends: refused with the ValidationError "Event validation failed: slug: Path `slug` is required." | derive the slug before validation, so a new event is stored with the slug of its title | high, not executed | EventModel.NewEventRefusedAsWritten | EventModel.NewEventSavesCorrected |

=== FILE: booking_actions.dfy ===
/** The server action that books a place: it connects, creates the Booking
    document (running its pre-save hook) and maps whatever the calls throw
    to the result the booking form reads. */
module BookingActions {
  import opened Wrappers
  import opened Text
  import opened BookingModel
  import opened MongoDb

  /** The object the action returns: { success } or { success, error }. */
  datatype ActionResult = ActionResult(success: bool, error: Option<string>)

  /** An error thrown inside the action, with the numeric code MongoDB
      attaches to driver errors when there is one. */
  datatype Thrown = Thrown(code: Option<int>, message: string)

  /** MongoDB's duplicate-key error code. */
  const DuplicateKeyCode: int := 11000

  /** The catch block: a duplicate-key error gets the user-facing message,
      any other error a bare failure. */
  function CatchResult(e: Thrown): (r: ActionResult)
    ensures !r.success
    ensures r.error.Some? <==> e.code == Some(DuplicateKeyCode)
    ensures r.error.Some? ==> r.error.value == "You already booked this event."
  {
    if e.code == Some(DuplicateKeyCode) then ActionResult(false, Some("You already booked this event."))
    else ActionResult(false, None)
  }

  /** A stored booking. */
  datatype Booking = Booking(eventId: EventId, email: string)

  /** How the insert of a validated booking ends: stored, or a driver error
      (a duplicate key among them). */
  datatype InsertOutcome = Inserted | InsertFailed(error: Thrown)

  /** The Booking collection. */
  class BookingStore {
    var bookings: seq<Booking>

    constructor (bookings: seq<Booking>)
      ensures this.bookings == bookings
    {
      this.bookings := bookings;
    }

    /** The insert behind Booking.create, once the hooks have passed. */
    method Insert(b: Booking, outcome: InsertOutcome) returns (r: Outcome<Thrown>)
      modifies this
      ensures outcome.Inserted? ==> r.Pass? && bookings == old(bookings) + [b]
      ensures outcome.InsertFailed? ==> r == Fail(outcome.error) && bookings == old(bookings)
    {
      if outcome.Inserted? {
        bookings := bookings + [b];
        r := Pass;
      } else {
        r := Fail(outcome.error);
      }
    }
  }

  /** The result createBooking returns, given how the connection ends,
      whether the hook accepts the booking and how the insert ends. The hook's
      errors carry no code, so a rejected booking is a bare failure. */
  function BookingResult(connect: Outcome<Thrown>, accepted: bool, insert: InsertOutcome): ActionResult {
    if connect.Fail? then CatchResult(connect.error)
    else if !accepted then ActionResult(false, None)
    else if insert.InsertFailed? then CatchResult(insert.error)
    else ActionResult(true, None)
  }

  /** Booking.create({ eventId, email }) for an email the schema's trim
      setter has already trimmed: the pre-save hook runs on the new document,
      and the insert follows once the hook has passed. The hook's own errors
      carry no code. */
  method Create(events: EventStore, store: BookingStore, eventId: EventId, email: string,
                insert: InsertOutcome)
    returns (r: Outcome<Thrown>)
    modifies store, events
    ensures events.ids == old(events.ids)
    ensures events.lookups == old(events.lookups) + (if IsEmail(email) then [eventId] else [])
    ensures !(IsEmail(email) && eventId in events.ids) ==> r.Fail? && r.error.code.None?
    ensures IsEmail(email) && eventId in events.ids ==>
      r == (if insert.Inserted? then Pass else Fail(insert.error))
    ensures r.Pass? ==> store.bookings == old(store.bookings) + [Booking(eventId, email)]
    ensures r.Fail? ==> store.bookings == old(store.bookings)
  {
    var doc := new BookingDocument(eventId, email);
    var verdict := doc.PreSave(events);
    if verdict.Fail? {
      return Fail(Thrown(None, verdict.error));
    }
    r := store.Insert(Booking(eventId, email), insert);
  }

  /** createBooking. connect is how connectDB ends; the schema's trim setter
      trims the email before the document exists; insert is how the store
      answers once the hook has passed. */
  method CreateBooking(connect: Outcome<Thrown>, events: EventStore, store: BookingStore,
                       eventId: EventId, email: string, insert: InsertOutcome)
    returns (r: ActionResult)
    modifies store, events
    ensures events.ids == old(events.ids)
    ensures events.lookups == old(events.lookups) + (if connect.Pass? && IsEmail(Trim(email)) then [eventId] else [])
    ensures r == BookingResult(connect, IsEmail(Trim(email)) && eventId in events.ids, insert)
    ensures r.success ==> store.bookings == old(store.bookings) + [Booking(eventId, Trim(email))]
    ensures !r.success ==> store.bookings == old(store.bookings)
  {
    if connect.Fail? {
      return CatchResult(connect.error);
    }
    var created := Create(events, store, eventId, Trim(email), insert);
    if created.Fail? {
      return CatchResult(created.error);
    }
    return ActionResult(true, None);
  }

  /** The action succeeds exactly when the connection is up, the hook accepts
      the booking and the store takes the insert, and then it reports no
      error; an error message appears exactly for a duplicate-key code. */
  lemma {:induction false} BookingResultMeaning(connect: Outcome<Thrown>, accepted: bool, insert: InsertOutcome)
    ensures var r := BookingResult(connect, accepted, insert);
      && (r.success <==> connect.Pass? && accepted && insert.Inserted?)
      && (r.success ==> r == ActionResult(true, None))
      && (r.error.Some? <==>
            || (connect.Fail? && connect.error.code == Some(DuplicateKeyCode))
            || (connect.Pass? && accepted && insert.InsertFailed? && insert.error.code == Some(DuplicateKeyCode)))
      && (r.error.Some? ==> r.error == Some("You already booked this event."))
  {
  }

  /** A booking rejected by its own hook (malformed email, missing event)
      comes back as a bare failure, with no message. */
  lemma {:induction false} RejectedBookingIsBare(insert: InsertOutcome)
    ensures BookingResult(Pass, false, insert) == ActionResult(false, None)
  {
  }

  /** createBooking as the module is written. Both of its imports take a
      default export that does not exist: connectDB (lib/mongodb.ts exports
      connectToDatabase by name) and Booking (the booking model exports it by
      name). The first statement of the try block already throws a TypeError
      without a code, so whatever the arguments, no booking is made and the
      action reports a bare failure. */
  function CreateBookingAsWritten(eventId: EventId, email: string): (r: ActionResult)
    ensures !r.success && r.error.None?
  {
    CatchResult(Thrown(None, ConnectNotAFunction))
  }
}

=== FILE: booking_model.dfy ===
/** The Booking document's write path: the email pattern and the pre-save
    hook that checks the email and then the referenced event. */
module BookingModel {
  import opened Wrappers
  import opened Text

  // ---------------------------------------------------------------------
  // The email pattern

  /** The class [^\s@]. */
  predicate IsEmailChar(c: char) {
    !IsSpace(c) && c != '@'
  }

  predicate AllEmailChars(s: string) {
    forall k :: 0 <= k < |s| ==> IsEmailChar(s[k])
  }

  /** The language of /^[^\s@]+@[^\s@]+\.[^\s@]+$/: a local part, an '@',
      and a domain split by some '.' into two non-empty parts, with no
      whitespace and no further '@' anywhere. */
  predicate EmailShape(s: string) {
    exists i, j :: 0 < i && i + 1 < j && j + 1 < |s| && s[i] == '@' && s[j] == '.'
      && AllEmailChars(s[..i]) && AllEmailChars(s[i + 1..j]) && AllEmailChars(s[j + 1..])
  }

  /** The position of the first '@' in s. */
  function FirstAt(s: string): (r: Option<nat>)
    ensures r.Some? ==> r.value < |s| && s[r.value] == '@'
    ensures r.Some? ==> forall k :: 0 <= k < r.value ==> s[k] != '@'
    ensures r.None? ==> forall k :: 0 <= k < |s| ==> s[k] != '@'
  {
    if s == [] then None
    else if s[0] == '@' then Some(0)
    else match FirstAt(s[1..])
      case None => None
      case Some(i) => Some(i + 1)
  }

  /** The part after the '@': free of whitespace and '@', with a '.' that is
      neither its first nor its last character. */
  predicate IsDomain(d: string) {
    AllEmailChars(d) && |d| >= 3 && '.' in d[1..|d| - 1]
  }

  /** emailRegex.test(s), decided by splitting at the first '@'. */
  predicate IsEmail(s: string) {
    match FirstAt(s)
    case None => false
    case Some(i) => 0 < i && AllEmailChars(s[..i]) && IsDomain(s[i + 1..])
  }

  /** The matcher accepts exactly the language of the pattern. */
  lemma {:induction false} IsEmailIff(s: string)
    ensures IsEmail(s) <==> EmailShape(s)
  {
    if IsEmail(s) {
      IsEmailSound(s);
    }
    if EmailShape(s) {
      var i, j :| 0 < i && i + 1 < j && j + 1 < |s| && s[i] == '@' && s[j] == '.'
        && AllEmailChars(s[..i]) && AllEmailChars(s[i + 1..j]) && AllEmailChars(s[j + 1..]);
      IsEmailComplete(s, i, j);
    }
  }

  lemma {:induction false} IsEmailSound(s: string)
    requires IsEmail(s)
    ensures EmailShape(s)
  {
    var i := FirstAt(s).value;
    var d := s[i + 1..];
    var inner := d[1..|d| - 1];
    var k :| 0 <= k < |inner| && inner[k] == '.';
    var j := i + 2 + k;
    assert s[j] == '.';
    assert AllEmailChars(s[i + 1..j]) by {
      assert s[i + 1..j] == d[..k + 1];
      EmailCharsSlice(d, 0, k + 1);
    }
    assert AllEmailChars(s[j + 1..]) by {
      assert s[j + 1..] == d[k + 2..];
      EmailCharsSlice(d, k + 2, |d|);
    }
    assert 0 < i && i + 1 < j && j + 1 < |s| && s[i] == '@' && s[j] == '.'
      && AllEmailChars(s[..i]) && AllEmailChars(s[i + 1..j]) && AllEmailChars(s[j + 1..]);
  }

  lemma {:induction false} EmailCharsSlice(d: string, lo: nat, hi: nat)
    requires AllEmailChars(d) && lo <= hi <= |d|
    ensures AllEmailChars(d[lo..hi])
  {
    assert forall k :: 0 <= k < hi - lo ==> d[lo..hi][k] == d[lo + k];
  }

  lemma {:induction false} IsEmailComplete(s: string, i: nat, j: nat)
    requires 0 < i && i + 1 < j && j + 1 < |s| && s[i] == '@' && s[j] == '.'
    requires AllEmailChars(s[..i]) && AllEmailChars(s[i + 1..j]) && AllEmailChars(s[j + 1..])
    ensures IsEmail(s)
  {
    assert forall k :: 0 <= k < i ==> s[k] == s[..i][k];
    assert FirstAt(s) == Some(i);
    var d := s[i + 1..];
    assert d == s[i + 1..j] + ['.'] + s[j + 1..];
    assert AllEmailChars(d);
    assert d[1..|d| - 1][j - i - 2] == '.';
  }

  lemma {:induction false} CountInAppend(a: string, b: string, cs: set<char>)
    ensures CountIn(a + b, cs) == CountIn(a, cs) + CountIn(b, cs)
  {
    if a == [] {
      assert a + b == b;
    } else {
      assert (a + b)[1..] == a[1..] + b;
      CountInAppend(a[1..], b, cs);
    }
  }

  lemma {:induction false} CountInNone(s: string, cs: set<char>)
    requires Avoids(s, cs)
    ensures CountIn(s, cs) == 0
  {
    if s != [] {
      CountInNone(s[1..], cs);
    }
  }

  /** An accepted email holds no whitespace and exactly one '@'. */
  lemma {:induction false} AcceptedEmail(s: string)
    requires IsEmail(s)
    ensures forall k :: 0 <= k < |s| ==> !IsSpace(s[k])
    ensures CountIn(s, {'@'}) == 1
  {
    var i := FirstAt(s).value;
    var local, d := s[..i], s[i + 1..];
    assert s == local + "@" + d;
    assert forall k :: 0 <= k < |s| ==> k < i || k == i || s[k] == d[k - i - 1];
    CountInAppend(local + "@", d, {'@'});
    CountInAppend(local, "@", {'@'});
    CountInNone(local, {'@'});
    CountInNone(d, {'@'});
  }

  // ---------------------------------------------------------------------
  // The event store and the hook

  /** The identifier of an Event document, as the hook compares it. */
  type EventId = string

  /** The Event collection, as far as the booking hook sees it: the ids of
      the stored events, and the ids Event.exists has been asked about, in
      the order of the queries. */
  class EventStore {
    var ids: set<EventId>
    var lookups: seq<EventId>

    constructor (ids: set<EventId>)
      ensures this.ids == ids && lookups == []
    {
      this.ids := ids;
      lookups := [];
    }

    /** Event.exists({ _id: id }): answers from the stored ids and records
        the query. */
    method Exists(id: EventId) returns (found: bool)
      modifies this
      ensures found <==> id in ids
      ensures ids == old(ids) && lookups == old(lookups) + [id]
    {
      found := id in ids;
      lookups := lookups + [id];
    }
  }

  /** A Booking document as the pre-save hook sees it. */
  class BookingDocument {
    var eventId: EventId
    var email: string

    constructor (eventId: EventId, email: string)
      ensures this.eventId == eventId && this.email == email
    {
      this.eventId := eventId;
      this.email := email;
    }

    /** The pre-save hook. It rejects a malformed email without querying the
        event store, then queries it once and rejects a booking whose event
        does not exist. The stored events are left as they are. */
    method PreSave(events: EventStore) returns (r: Outcome<string>)
      modifies events
      ensures events.ids == old(events.ids)
      ensures !IsEmail(email) ==> r == Fail("Invalid email format") && events.lookups == old(events.lookups)
      ensures IsEmail(email) ==> events.lookups == old(events.lookups) + [eventId]
      ensures IsEmail(email) && eventId !in events.ids ==> r == Fail("Referenced event does not exist")
      ensures r.Pass? <==> IsEmail(email) && eventId in events.ids
    {
      if !IsEmail(email) {
        return Fail("Invalid email format");
      }
      var found := events.Exists(eventId);
      if !found {
        return Fail("Referenced event does not exist");
      }
      return Pass;
    }
  }
}

=== FILE: create_event_form.dfy ===
/** The create-event form's list inputs: the text typed into the tags and
    agenda boxes becomes a list of items, which the form sends as a JSON
    array alongside the other fields and the image. */
module CreateEventForm {
  import opened Wrappers
  import opened Text
  import opened Json
  import opened EventsRoute

  /** The separators of /[\n,]/. */
  const Separators: set<char> := {'\n', ','}

  /** splitList: the trimmed, non-empty pieces between commas and line breaks. */
  function SplitList(value: string): seq<string> {
    TrimmedPieces(value, Separators)
  }

  /** Every item is non-empty, has no surrounding whitespace and holds no
      comma or line break; there are at most as many items as separators
      plus one. */
  lemma {:induction false} SplitListItems(value: string)
    ensures |SplitList(value)| <= CountIn(value, Separators) + 1
    ensures forall k :: 0 <= k < |SplitList(value)| ==>
      var item := SplitList(value)[k];
      item != [] && Trimmed(item) && ',' !in item && '\n' !in item
  {
    TrimmedPiecesShape(value, Separators);
  }

  /** The list is empty exactly when the text holds nothing but commas and
      whitespace (line breaks are whitespace). */
  lemma {:induction false} SplitListEmptyIff(value: string)
    ensures SplitList(value) == [] <==> forall i :: 0 <= i < |value| ==> value[i] == ',' || IsSpace(value[i])
  {
    TrimmedPiecesEmptyIff(value, Separators);
  }

  /** Items keep their input order: text cut at a separator gives the items
      of the part before it followed by those of the part after it. */
  lemma {:induction false} SplitListOrder(a: string, c: char, b: string)
    requires c in Separators
    ensures SplitList(a + [c] + b) == SplitList(a) + SplitList(b)
  {
    TrimmedPiecesAt(a, c, b, Separators);
  }

  /** Items written one per line, or separated by commas, come back as
      they were. */
  lemma {:induction false} SplitListOfJoin(xs: seq<string>, sep: char)
    requires sep in Separators
    requires forall k :: 0 <= k < |xs| ==> xs[k] != [] && Trimmed(xs[k]) && ',' !in xs[k] && '\n' !in xs[k]
    ensures SplitList(Join(xs, sep)) == xs
  {
    TrimmedPiecesOfJoin(xs, sep, Separators);
  }

  /** Splitting the list written back with commas changes nothing. */
  lemma {:induction false} SplitListIdempotent(value: string)
    ensures SplitList(Join(SplitList(value), ',')) == SplitList(value)
  {
    SplitListItems(value);
    SplitListOfJoin(SplitList(value), ',');
  }

  /** What the form sends for tags and agenda: JSON.stringify(splitList(value)). */
  function ListField(value: string): string {
    StringifyStrings(SplitList(value))
  }

  /** The route reads the sent field back as exactly the list, both where
      it parses the raw field and where it coerces the record's value. */
  lemma {:induction false} ListFieldReadBack(value: string)
    ensures Parse(ListField(value)) == Some(StringArray(SplitList(value)))
    ensures ParseField(Some(FormText(ListField(value)))) == Ok(StringArray(SplitList(value)))
    ensures CoerceList(ListField(value)) == Some(StringArray(SplitList(value)))
  {
    StringifyRoundTrip(SplitList(value));
  }

  /** The FormData handleSubmit builds: the text fields, then tags and
      agenda as JSON arrays, then the image file. */
  function Payload(fields: seq<(string, string)>, tags: string, agenda: string, image: string)
    : (entries: seq<(string, FormValue)>)
    ensures |entries| == |fields| + 3
  {
    TextEntries(fields)
      + [("tags", FormText(ListField(tags))), ("agenda", FormText(ListField(agenda))), ("image", FormFile(image))]
  }

  function TextEntries(fields: seq<(string, string)>): (r: seq<(string, FormValue)>)
    ensures |r| == |fields|
    ensures forall i :: 0 <= i < |fields| ==> r[i] == (fields[i].0, FormText(fields[i].1))
  {
    seq(|fields|, i requires 0 <= i < |fields| => (fields[i].0, FormText(fields[i].1)))
  }

  /** In the payload, get finds the two lists and the image the form set. */
  lemma {:induction false} PayloadFields(fields: seq<(string, string)>, tags: string, agenda: string, image: string)
    requires forall i :: 0 <= i < |fields| ==> fields[i].0 !in {"tags", "agenda", "image"}
    ensures var entries := Payload(fields, tags, agenda, image);
      && FormGet(entries, "tags") == Some(FormText(ListField(tags)))
      && FormGet(entries, "agenda") == Some(FormText(ListField(agenda)))
      && FormGet(entries, "image") == Some(FormFile(image))
  {
    GetLast(TextEntries(fields), FormText(ListField(tags)), FormText(ListField(agenda)), FormFile(image));
  }

  lemma {:induction false} GetLast(front: seq<(string, FormValue)>, t: FormValue, a: FormValue, f: FormValue)
    requires forall i :: 0 <= i < |front| ==> front[i].0 !in {"tags", "agenda", "image"}
    ensures var entries := front + [("tags", t), ("agenda", a), ("image", f)];
      && FormGet(entries, "tags") == Some(t)
      && FormGet(entries, "agenda") == Some(a)
      && FormGet(entries, "image") == Some(f)
  {
    var back := [("tags", t), ("agenda", a), ("image", f)];
    FormGetSkip(front, back, "tags");
    FormGetSkip(front, back, "agenda");
    FormGetSkip(front, back, "image");
    assert back[1..] == [("agenda", a), ("image", f)];
    assert back[1..][1..] == [("image", f)];
    assert FormGet(back[1..][1..], "image") == Some(f);
    assert FormGet(back[1..], "image") == Some(f);
  }

  /** A payload the form sends, with the Cloudinary settings in place and a
      connection, gets as far as the upload, and the document handed to
      Event.create carries the two lists exactly as splitList made them. */
  lemma {:induction false} PayloadReachesCreate(fields: seq<(string, string)>, tags: string, agenda: string, image: string,
                             boundary: string, env: CloudinaryEnv, url: string)
    requires Configured(env) && '/' !in boundary
    requires forall i :: 0 <= i < |fields| ==> fields[i].0 !in {"tags", "agenda", "image"}
    ensures var entries := Payload(fields, tags, agenda, image);
      && ReachesUpload(Pass, env, Request(Some(MultipartPrefix + boundary), "", Ok(entries)))
      && CreateArgument(entries, url)["tags"] == JsonValue(StringArray(SplitList(tags)))
      && CreateArgument(entries, url)["agenda"] == JsonValue(StringArray(SplitList(agenda)))
      && CreateArgument(entries, url)["image"] == Str(url)
  {
    var entries := Payload(fields, tags, agenda, image);
    MultipartIsForm(boundary);
    PayloadFields(fields, tags, agenda, image);
    ListFieldReadBack(tags);
    ListFieldReadBack(agenda);
    CreateArgumentFields(entries, url);
  }
}

=== FILE: event_model.dfy ===
/** The Event document's write path: the slug derived from the title, the
    normalisation of the time of day, the required-field guards, and the
    pre-save hook that runs them in a fixed order on the document. */
module EventModel {
  import opened Wrappers
  import opened Text

  // ---------------------------------------------------------------------
  // slugify

  /** The class [a-z0-9]. */
  predicate IsSlugChar(c: char) {
    'a' <= c <= 'z' || '0' <= c <= '9'
  }

  /** Only [a-z0-9-], no two hyphens in a row. */
  predicate HyphenSeparated(s: string) {
    && (forall i :: 0 <= i < |s| ==> IsSlugChar(s[i]) || s[i] == '-')
    && (forall i :: 0 <= i < |s| - 1 ==> !(s[i] == '-' && s[i + 1] == '-'))
  }

  /** What a slug looks like: hyphen-separated runs of [a-z0-9] with no
      hyphen at either end. */
  predicate IsSlug(s: string) {
    HyphenSeparated(s) && (s == [] || (s[0] != '-' && s[|s| - 1] != '-'))
  }

  /** Drops the characters outside [a-z0-9] at the start of s. */
  function DropRun(s: string): (r: string)
    ensures |r| <= |s| && r == s[|s| - |r|..]
    ensures r == [] || IsSlugChar(r[0])
    ensures forall i :: 0 <= i < |s| - |r| ==> !IsSlugChar(s[i])
  {
    if s != [] && !IsSlugChar(s[0]) then
      var r := DropRun(s[1..]);
      assert forall i :: 1 <= i < |s| - |r| ==> s[i] == s[1..][i - 1];
      r
    else s
  }

  /** s.replace(/[^a-z0-9]+/g, "-"): every maximal run of characters outside
      [a-z0-9] becomes a single hyphen. */
  function CollapseRuns(s: string): (r: string)
    ensures HyphenSeparated(r)
    ensures s != [] && IsSlugChar(s[0]) ==> r != [] && r[0] == s[0]
    decreases |s|
  {
    if s == [] then []
    else if IsSlugChar(s[0]) then [s[0]] + CollapseRuns(s[1..])
    else "-" + CollapseRuns(DropRun(s[1..]))
  }

  /** s.replace(/(^-|-$)+/g, ""): a hyphen at the start and a hyphen at the
      end are removed. */
  function StripHyphens(s: string): string {
    var a := if s != [] && s[0] == '-' then s[1..] else s;
    if a != [] && a[|a| - 1] == '-' then a[..|a| - 1] else a
  }

  /** Stripping the end hyphens of a hyphen-separated string leaves a slug. */
  lemma {:induction false} StripHyphensSlug(c: string)
    requires HyphenSeparated(c)
    ensures IsSlug(StripHyphens(c))
  {
    var a := if c != [] && c[0] == '-' then c[1..] else c;
    assert HyphenSeparated(a) && (a == [] || a[0] != '-') by {
      if c != [] && c[0] == '-' {
        assert forall i :: 0 <= i < |a| ==> a[i] == c[i + 1];
      }
    }
    if a != [] && a[|a| - 1] == '-' {
      var b := a[..|a| - 1];
      assert forall i :: 0 <= i < |b| ==> b[i] == a[i];
    }
  }

  /** slugify: trim, lower-case, collapse runs, strip the end hyphens. */
  function Slugify(title: string): (slug: string)
    ensures IsSlug(slug)
  {
    StripHyphensSlug(CollapseRuns(ToLower(Trim(title))));
    StripHyphens(CollapseRuns(ToLower(Trim(title))))
  }

  /** The [a-z0-9] characters of s, in order. */
  function Alnums(s: string): string {
    if s == [] then [] else (if IsSlugChar(s[0]) then [s[0]] else []) + Alnums(s[1..])
  }

  lemma {:induction false} AlnumsAppend(a: string, b: string)
    ensures Alnums(a + b) == Alnums(a) + Alnums(b)
  {
    if a != [] {
      assert (a + b)[0] == a[0];
      assert (a + b)[1..] == a[1..] + b;
      AlnumsAppend(a[1..], b);
    } else {
      assert a + b == b;
    }
  }

  lemma {:induction false} AlnumsNone(s: string)
    requires forall i :: 0 <= i < |s| ==> !IsSlugChar(s[i])
    ensures Alnums(s) == []
  {
    if s != [] {
      AlnumsNone(s[1..]);
    }
  }

  lemma {:induction false} AlnumsDropRun(s: string)
    ensures Alnums(DropRun(s)) == Alnums(s)
  {
    var r := DropRun(s);
    var p := s[..|s| - |r|];
    assert s == p + r;
    forall i | 0 <= i < |p|
      ensures !IsSlugChar(p[i])
    {
      assert p[i] == s[i];
    }
    AlnumsAppend(p, r);
    AlnumsNone(p);
  }

  lemma {:induction false} AlnumsCollapse(s: string)
    ensures Alnums(CollapseRuns(s)) == Alnums(s)
    decreases |s|
  {
    if s != [] {
      if IsSlugChar(s[0]) {
        AlnumsCollapse(s[1..]);
        AlnumsAppend([s[0]], CollapseRuns(s[1..]));
      } else {
        var d := DropRun(s[1..]);
        AlnumsCollapse(d);
        AlnumsDropRun(s[1..]);
        AlnumsAppend("-", CollapseRuns(d));
      }
    }
  }

  lemma {:induction false} AlnumsHyphen()
    ensures Alnums("-") == []
  {
    assert "-"[1..] == [];
  }

  lemma {:induction false} AlnumsStrip(s: string)
    ensures Alnums(StripHyphens(s)) == Alnums(s)
  {
    AlnumsHyphen();
    var a := if s != [] && s[0] == '-' then s[1..] else s;
    if s != [] && s[0] == '-' {
      assert s == "-" + a;
      AlnumsAppend("-", a);
    }
    assert Alnums(a) == Alnums(s);
    if a != [] && a[|a| - 1] == '-' {
      var b := a[..|a| - 1];
      assert a == b + "-";
      AlnumsAppend(b, "-");
      assert StripHyphens(s) == b;
    } else {
      assert StripHyphens(s) == a;
    }
  }

  lemma {:induction false} ToLowerAppend(a: string, b: string)
    ensures ToLower(a + b) == ToLower(a) + ToLower(b)
  {
  }

  lemma {:induction false} AlnumsLowerSpace(w: string)
    requires AllSpace(w)
    ensures Alnums(ToLower(w)) == []
  {
    AlnumsNone(ToLower(w));
  }

  /** The slug keeps exactly the letters and digits of the lower-cased title,
      in their order: only separators are rewritten. */
  lemma {:induction false} SlugKeepsAlnums(title: string)
    ensures Alnums(Slugify(title)) == Alnums(ToLower(title))
  {
    var pre, post := TrimDecompose(title);
    var t := Trim(title);
    ToLowerAppend(pre + t, post);
    ToLowerAppend(pre, t);
    AlnumsAppend(ToLower(pre) + ToLower(t), ToLower(post));
    AlnumsAppend(ToLower(pre), ToLower(t));
    AlnumsLowerSpace(pre);
    AlnumsLowerSpace(post);
    AlnumsCollapse(ToLower(t));
    AlnumsStrip(CollapseRuns(ToLower(t)));
  }

  lemma {:induction false} AlnumsEmptyIff(s: string)
    ensures Alnums(s) == [] <==> forall i :: 0 <= i < |s| ==> !IsSlugChar(s[i])
  {
    if s != [] {
      AlnumsEmptyIff(s[1..]);
      assert forall i :: 1 <= i < |s| ==> s[i] == s[1..][i - 1];
    }
  }

  /** A title yields the empty slug exactly when it has no ASCII letter or
      digit. */
  lemma {:induction false} SlugEmptyIff(title: string)
    ensures Slugify(title) == [] <==>
      forall i :: 0 <= i < |title| ==> !IsSlugChar(LowerChar(title[i]))
  {
    var slug := Slugify(title);
    SlugKeepsAlnums(title);
    AlnumsEmptyIff(ToLower(title));
    if slug != [] {
      assert IsSlugChar(slug[0]);
      assert Alnums(slug) != [];
    }
  }

  lemma {:induction false} CollapseOfHyphenSeparated(s: string)
    requires HyphenSeparated(s)
    ensures CollapseRuns(s) == s
  {
    if s != [] {
      assert HyphenSeparated(s[1..]) by {
        assert forall i :: 0 <= i < |s| - 1 ==> s[1..][i] == s[i + 1];
      }
      CollapseOfHyphenSeparated(s[1..]);
      if !IsSlugChar(s[0]) {
        assert DropRun(s[1..]) == s[1..];
        assert s == "-" + s[1..];
      } else {
        assert s == [s[0]] + s[1..];
      }
    }
  }

  lemma {:induction false} SlugTrimmed(s: string)
    requires IsSlug(s)
    ensures Trim(s) == s
  {
    if s != [] {
      assert IsSlugChar(s[0]) && IsSlugChar(s[|s| - 1]);
    }
    TrimOfTrimmed(s);
  }

  /** The slug does not depend on case: a title and its lower-cased form
      have the same slug, so SlugJoinsWords covers any title whose words
      lower-case to slugs ("Hello World" gives "hello-world"). */
  lemma {:induction false} SlugifyLower(t: string)
    ensures Slugify(ToLower(t)) == Slugify(t)
  {
    TrimLower(t);
    ToLowerTwice(Trim(t));
  }

  lemma {:induction false} LowerOfSlug(s: string)
    requires HyphenSeparated(s)
    ensures ToLower(s) == s
  {
    assert forall i :: 0 <= i < |s| ==> LowerChar(s[i]) == s[i];
  }

  /** A slug is its own slug. */
  lemma {:induction false} SlugifyOfSlug(s: string)
    requires IsSlug(s)
    ensures Slugify(s) == s
  {
    SlugTrimmed(s);
    LowerOfSlug(s);
    CollapseOfHyphenSeparated(s);
  }

  /** Deriving a slug from a slug changes nothing. */
  lemma {:induction false} SlugifyIdempotent(title: string)
    ensures Slugify(Slugify(title)) == Slugify(title)
  {
    SlugifyOfSlug(Slugify(title));
  }

  /** Where the hyphens go: two slugs around a non-empty run of characters
      that are not [a-z0-9] once lower-cased come out joined by exactly one
      hyphen ("react" + " & " + "next-js" gives "react-next-js"). Applied
      word by word, the slug is the title's [a-z0-9] runs joined by single
      hyphens. */
  lemma {:induction false} SlugJoinsWords(a: string, sep: string, b: string)
    requires IsSlug(a) && a != [] && IsSlug(b) && b != []
    requires sep != [] && forall i :: 0 <= i < |sep| ==> !IsSlugChar(LowerChar(sep[i]))
    ensures Slugify(a + sep + b) == a + "-" + b
  {
    var t := a + sep + b;
    var ls := ToLower(sep);
    SlugJoinsWordsTrimmed(a, sep, b);
    SlugJoinsWordsLower(a, sep, b);
    CollapsePrefix(a, ls + b);
    CollapseRunLower(sep, b);
    JoinedEnds(a, b);
    SlugOfCollapsed(t, a + "-" + b);
  }

  /** A lower-cased separator run in front of a slug becomes one hyphen. */
  lemma {:induction false} CollapseRunLower(sep: string, b: string)
    requires sep != [] && forall i :: 0 <= i < |sep| ==> !IsSlugChar(LowerChar(sep[i]))
    requires IsSlug(b) && b != []
    ensures CollapseRuns(ToLower(sep) + b) == "-" + b
  {
    var ls := ToLower(sep);
    forall i | 0 <= i < |ls| ensures !IsSlugChar(ls[i]) {
      assert ls[i] == LowerChar(sep[i]);
    }
    CollapseRunThen(ls, b);
  }

  lemma {:induction false} JoinedEnds(a: string, b: string)
    requires IsSlug(a) && a != [] && IsSlug(b) && b != []
    ensures a + ("-" + b) == a + "-" + b
    ensures var c := a + "-" + b; c != [] && c[0] != '-' && c[|c| - 1] != '-'
  {
    var c := a + "-" + b;
    assert IsSlugChar(a[0]) && IsSlugChar(b[|b| - 1]);
    assert c[0] == a[0] && c[|c| - 1] == b[|b| - 1];
  }

  /** The last step of slugify: a collapsed text with no hyphen at either
      end is the slug. */
  lemma {:induction false} SlugOfCollapsed(t: string, c: string)
    requires CollapseRuns(ToLower(Trim(t))) == c
    requires c != [] && c[0] != '-' && c[|c| - 1] != '-'
    ensures Slugify(t) == c
  {
    StripHyphensNone(c);
    assert Slugify(t) == StripHyphens(c);
  }

  /** Text with no hyphen at either end loses nothing to StripHyphens. */
  lemma {:induction false} StripHyphensNone(c: string)
    requires c != [] && c[0] != '-' && c[|c| - 1] != '-'
    ensures StripHyphens(c) == c
  {
  }

  lemma {:induction false} SlugJoinsWordsTrimmed(a: string, sep: string, b: string)
    requires IsSlug(a) && a != [] && IsSlug(b) && b != []
    ensures Trim(a + sep + b) == a + sep + b
  {
    var t := a + sep + b;
    assert IsSlugChar(a[0]) && IsSlugChar(b[|b| - 1]);
    assert t[0] == a[0] && t[|t| - 1] == b[|b| - 1];
    TrimOfTrimmed(t);
  }

  lemma {:induction false} SlugJoinsWordsLower(a: string, sep: string, b: string)
    requires IsSlug(a) && IsSlug(b)
    ensures ToLower(a + sep + b) == a + (ToLower(sep) + b)
  {
    ToLowerAppend(a + sep, b);
    ToLowerAppend(a, sep);
    LowerOfSlug(a);
    LowerOfSlug(b);
  }

  /** A non-empty run outside [a-z0-9] in front of a non-empty slug becomes
      one hyphen. */
  lemma {:induction false} CollapseRunThen(w: string, b: string)
    requires w != [] && forall i :: 0 <= i < |w| ==> !IsSlugChar(w[i])
    requires IsSlug(b) && b != []
    ensures CollapseRuns(w + b) == "-" + b
  {
    assert IsSlugChar(b[0]);
    assert (w + b)[0] == w[0] && (w + b)[1..] == w[1..] + b;
    DropRunOf(w[1..], b);
    CollapseOfHyphenSeparated(b);
  }

  /** Collapsing leaves a hyphen-separated prefix that ends in [a-z0-9] as
      it is. */
  lemma {:induction false} CollapsePrefix(p: string, q: string)
    requires HyphenSeparated(p) && p != [] && IsSlugChar(p[|p| - 1])
    ensures CollapseRuns(p + q) == p + CollapseRuns(q)
    decreases |p|
  {
    if |p| == 1 {
      assert p + q == [p[0]] + q;
      CollapseSlugHead(p[0], q);
    } else {
      var p' := p[1..];
      HyphenSeparatedTail(p);
      assert p'[|p'| - 1] == p[|p| - 1];
      CollapsePrefix(p', q);
      CollapseConsStep(p[0], p', q);
      assert p == [p[0]] + p';
    }
  }

  /** One step of CollapsePrefix: a character in [a-z0-9], or a hyphen
      before one, in front of a prefix that collapsing keeps. */
  lemma {:induction false} CollapseConsStep(c: char, p: string, q: string)
    requires IsSlugChar(c) || (c == '-' && p != [] && IsSlugChar(p[0]))
    requires CollapseRuns(p + q) == p + CollapseRuns(q)
    ensures CollapseRuns([c] + p + q) == [c] + p + CollapseRuns(q)
  {
    assert [c] + p + q == [c] + (p + q);
    if IsSlugChar(c) {
      CollapseSlugHead(c, p + q);
    } else {
      assert (p + q)[0] == p[0];
      assert [c] == "-";
      CollapseHyphenHead(p + q);
    }
    assert [c] + (p + CollapseRuns(q)) == [c] + p + CollapseRuns(q);
  }

  lemma {:induction false} CollapseSlugHead(c: char, rest: string)
    requires IsSlugChar(c)
    ensures CollapseRuns([c] + rest) == [c] + CollapseRuns(rest)
  {
    assert ([c] + rest)[1..] == rest;
  }

  lemma {:induction false} CollapseHyphenHead(rest: string)
    requires rest != [] && IsSlugChar(rest[0])
    ensures CollapseRuns("-" + rest) == "-" + CollapseRuns(rest)
  {
    assert ("-" + rest)[1..] == rest;
  }

  /** Dropping the first character keeps a string hyphen-separated; when
      the first character was a hyphen the next one is in [a-z0-9]. */
  lemma {:induction false} HyphenSeparatedTail(p: string)
    requires HyphenSeparated(p) && |p| >= 2
    ensures HyphenSeparated(p[1..])
    ensures p[0] == '-' ==> IsSlugChar(p[1])
  {
    var p' := p[1..];
    forall i | 0 <= i < |p'| ensures IsSlugChar(p'[i]) || p'[i] == '-' {
      assert p'[i] == p[i + 1];
    }
    forall i | 0 <= i < |p'| - 1 ensures !(p'[i] == '-' && p'[i + 1] == '-') {
      assert p'[i] == p[i + 1] && p'[i + 1] == p[i + 2];
    }
    assert !(p[0] == '-' && p[1] == '-');
  }

  /** A run outside [a-z0-9] in front of text that starts in [a-z0-9] is
      dropped whole. */
  lemma {:induction false} DropRunOf(w: string, b: string)
    requires forall i :: 0 <= i < |w| ==> !IsSlugChar(w[i])
    requires b == [] || IsSlugChar(b[0])
    ensures DropRun(w + b) == b
  {
    if w != [] {
      assert (w + b)[1..] == w[1..] + b;
      DropRunOf(w[1..], b);
    }
  }

  // ---------------------------------------------------------------------
  // normalizeTime

  predicate AllDigits(s: string) {
    forall i :: 0 <= i < |s| ==> IsDigit(s[i])
  }

  function DigitValue(c: char): nat
    requires IsDigit(c)
  {
    c as int - '0' as int
  }

  function DigitChar(n: nat): (c: char)
    requires n < 10
    ensures IsDigit(c) && DigitValue(c) == n
  {
    ('0' as int + n) as char
  }

  /** Number.parseInt(s, 10) for one or two decimal digits. */
  function ParseDigits(s: string): nat
    requires 1 <= |s| <= 2 && AllDigits(s)
  {
    if |s| == 1 then DigitValue(s[0]) else 10 * DigitValue(s[0]) + DigitValue(s[1])
  }

  /** Number.prototype.toString() for a value below 100. */
  function DecimalString(n: nat): string
    requires n < 100
  {
    if n < 10 then [DigitChar(n)] else [DigitChar(n / 10), DigitChar(n % 10)]
  }

  /** String.prototype.padStart(2, "0"). */
  function PadStart2(s: string): string {
    if |s| == 0 then "00" else if |s| == 1 then "0" + s else s
  }

  /** n written with exactly two decimal digits. */
  function TwoDigits(n: nat): (s: string)
    requires n < 100
    ensures |s| == 2 && AllDigits(s) && ParseDigits(s) == n
  {
    [DigitChar(n / 10), DigitChar(n % 10)]
  }

  /** The hour group of the 24-hour pattern, [01]?\d|2[0-3]. */
  predicate IsHour24(h: string) {
    || (|h| == 1 && IsDigit(h[0]))
    || (|h| == 2 && (h[0] == '0' || h[0] == '1') && IsDigit(h[1]))
    || (|h| == 2 && h[0] == '2' && '0' <= h[1] <= '3')
  }

  /** The hour group of the 12-hour pattern, 0?[1-9]|1[0-2]. */
  predicate IsHour12(h: string) {
    || (|h| == 1 && '1' <= h[0] <= '9')
    || (|h| == 2 && h[0] == '0' && '1' <= h[1] <= '9')
    || (|h| == 2 && h[0] == '1' && '0' <= h[1] <= '2')
  }

  /** The minutes group, [0-5]\d. */
  predicate IsMinutes(m: string) {
    |m| == 2 && '0' <= m[0] <= '5' && IsDigit(m[1])
  }

  /** The group am|pm under the case-insensitive flag. */
  predicate IsMeridiem(m: string) {
    |m| == 2 && (m[0] == 'a' || m[0] == 'A' || m[0] == 'p' || m[0] == 'P') && (m[1] == 'm' || m[1] == 'M')
  }

  /** The language of /^([01]?\d|2[0-3]):([0-5]\d)$/. */
  predicate Matches24(t: string) {
    exists i :: 0 <= i < |t| && t[i] == ':' && IsHour24(t[..i]) && IsMinutes(t[i + 1..])
  }

  /** The language of /^(0?[1-9]|1[0-2]):([0-5]\d)\s*(am|pm)$/i. */
  predicate Matches12(t: string) {
    exists i :: 0 <= i && i + 5 <= |t| && t[i] == ':' && IsHour12(t[..i])
      && IsMinutes(t[i + 1..i + 3]) && AllSpace(t[i + 3..|t| - 2]) && IsMeridiem(t[|t| - 2..])
  }

  /** The position of the colon after a one- or two-character hour. */
  function ColonAt(t: string): nat {
    if |t| > 1 && t[1] == ':' then 1 else 2
  }

  /** The 24-hour pattern's match: the hour and minute groups. */
  function Match24(t: string): (r: Option<(string, string)>)
    ensures r.Some? ==> t == r.value.0 + ":" + r.value.1 && IsHour24(r.value.0) && IsMinutes(r.value.1)
  {
    var i := ColonAt(t);
    if i < |t| && t[i] == ':' && IsHour24(t[..i]) && IsMinutes(t[i + 1..]) then
      assert t == t[..i] + ":" + t[i + 1..];
      Some((t[..i], t[i + 1..]))
    else None
  }

  /** The 12-hour pattern's match: the hour, minute and meridiem groups. */
  function Match12(t: string): (r: Option<(string, string, string)>)
    ensures r.Some? ==> IsHour12(r.value.0) && IsMinutes(r.value.1) && IsMeridiem(r.value.2)
  {
    var i := ColonAt(t);
    if i + 5 <= |t| && t[i] == ':' && IsHour12(t[..i]) && IsMinutes(t[i + 1..i + 3])
       && AllSpace(t[i + 3..|t| - 2]) && IsMeridiem(t[|t| - 2..])
    then Some((t[..i], t[i + 1..i + 3], t[|t| - 2..]))
    else None
  }

  /** The matcher finds a match exactly when the pattern's language holds. */
  lemma {:induction false} Match24Iff(t: string)
    ensures Match24(t).Some? <==> Matches24(t)
  {
    if Matches24(t) {
      var i :| 0 <= i < |t| && t[i] == ':' && IsHour24(t[..i]) && IsMinutes(t[i + 1..]);
      assert i == ColonAt(t) by {
        if i == 2 { assert t[1] == t[..i][1]; }
      }
    }
  }

  lemma {:induction false} Match12Iff(t: string)
    ensures Match12(t).Some? <==> Matches12(t)
  {
    if Matches12(t) {
      var i :| 0 <= i && i + 5 <= |t| && t[i] == ':' && IsHour12(t[..i])
        && IsMinutes(t[i + 1..i + 3]) && AllSpace(t[i + 3..|t| - 2]) && IsMeridiem(t[|t| - 2..]);
      assert i == ColonAt(t) by {
        if i == 2 { assert t[1] == t[..i][1]; }
      }
    }
  }

  /** HH:MM with HH in 00-23 and MM in 00-59. */
  predicate IsClockTime(s: string) {
    && |s| == 5 && s[2] == ':'
    && AllDigits(s[..2]) && ParseDigits(s[..2]) <= 23
    && AllDigits(s[3..]) && ParseDigits(s[3..]) <= 59
  }

  lemma {:induction false} ClockTimeOf(h: string, m: string)
    requires |h| == 2 && AllDigits(h) && ParseDigits(h) <= 23 && IsMinutes(m)
    ensures IsClockTime(h + ":" + m)
  {
    var s := h + ":" + m;
    assert s[..2] == h && s[3..] == m;
  }

  /** The 24-hour branch yields HH:MM. */
  lemma {:induction false} Clock24(h: string, m: string)
    requires IsHour24(h) && IsMinutes(m)
    ensures IsClockTime(PadStart2(h) + ":" + m)
  {
    var p := PadStart2(h);
    if |h| == 1 {
      assert p == ['0', h[0]];
    }
    ClockTimeOf(p, m);
  }

  /** The 12-hour branch yields HH:MM. */
  lemma {:induction false} Clock12(n: nat, m: string)
    requires n < 24 && IsMinutes(m)
    ensures PadStart2(DecimalString(n)) == TwoDigits(n)
    ensures IsClockTime(TwoDigits(n) + ":" + m)
  {
    ClockTimeOf(TwoDigits(n), m);
  }

  /** normalizeTime: 24-hour H:MM or HH:MM, else 12-hour H:MM am/pm, written
      back as zero-padded 24-hour HH:MM; anything else is rejected. */
  function NormalizeTime(value: string): (r: Result<string, string>)
    ensures r.Err? ==> r.error == "Invalid time format"
    ensures r.Ok? ==> IsClockTime(r.value)
  {
    var t := Trim(value);
    match Match24(t)
    case Some((h, m)) =>
      Clock24(h, m);
      Ok(PadStart2(h) + ":" + m)
    case None =>
      match Match12(t)
      case None => Err("Invalid time format")
      case Some((h, m, meridiem)) =>
        Hour12Value(h);
        var hour := ParseDigits(h);
        var normalizedHour := if ToLower(meridiem) == "pm" then hour % 12 + 12 else hour % 12;
        Clock12(normalizedHour, m);
        Ok(PadStart2(DecimalString(normalizedHour)) + ":" + m)
  }

  /** normalizeTime succeeds exactly on the inputs that, once trimmed, match
      one of its two patterns. */
  lemma {:induction false} NormalizeTimeAcceptsIff(value: string)
    ensures NormalizeTime(value).Ok? <==> Matches24(Trim(value)) || Matches12(Trim(value))
  {
    Match24Iff(Trim(value));
    Match12Iff(Trim(value));
  }

  /** What the 24-hour branch returns once the trimmed input is split. */
  lemma {:induction false} NormalizeTime24(value: string, t: string, h: string, m: string)
    requires Trim(value) == t && t == h + ":" + m && IsHour24(h) && IsMinutes(m)
    ensures NormalizeTime(value) == Ok(PadStart2(h) + ":" + m)
  {
    Match24Of(t, h, m);
  }

  /** A canonical HH:MM is left as it is. */
  lemma {:induction false} NormalizeTimeOfClockTime(s: string)
    requires IsClockTime(s)
    ensures NormalizeTime(s) == Ok(s)
  {
    ClockTimeSplit(s);
    ClockTimeTrimmed(s);
    NormalizeTime24(s, s, s[..2], s[3..]);
  }

  lemma {:induction false} ClockTimeSplit(s: string)
    requires IsClockTime(s)
    ensures s == s[..2] + ":" + s[3..] && IsHour24(s[..2]) && IsMinutes(s[3..]) && PadStart2(s[..2]) == s[..2]
  {
    Hour24OfValue(s[..2]);
  }

  lemma {:induction false} ClockTimeTrimmed(s: string)
    requires IsClockTime(s)
    ensures Trim(s) == s
  {
    assert s[..2][0] == s[0] && s[3..][1] == s[4];
    TrimOfTrimmed(s);
  }

  lemma {:induction false} Hour24OfValue(h: string)
    requires |h| == 2 && AllDigits(h) && ParseDigits(h) <= 23
    ensures IsHour24(h)
  {
  }

  /** Match24 captures the hour and minutes of any string the pattern matches. */
  lemma {:induction false} Match24Of(t: string, h: string, m: string)
    requires t == h + ":" + m && IsHour24(h) && IsMinutes(m)
    ensures Match24(t) == Some((h, m))
  {
    assert t[..|h|] == h && t[|h|] == ':' && t[|h| + 1..] == m;
    if |h| == 2 { assert t[1] == h[1]; }
    assert ColonAt(t) == |h|;
  }

  /** Normalising a normalised time changes nothing. */
  lemma {:induction false} NormalizeTimeIdempotent(value: string)
    requires NormalizeTime(value).Ok?
    ensures NormalizeTime(NormalizeTime(value).value) == NormalizeTime(value)
  {
    NormalizeTimeOfClockTime(NormalizeTime(value).value);
  }

  /** A 24-hour time with a one- or two-digit hour up to 23, between any
      whitespace, comes back with the hour padded to two digits and the
      minutes unchanged. */
  lemma {:induction false} TwentyFourHourTime(w1: string, h: string, m: string, w2: string)
    requires AllSpace(w1) && AllSpace(w2)
    requires 1 <= |h| <= 2 && AllDigits(h) && ParseDigits(h) <= 23 && IsMinutes(m)
    ensures NormalizeTime(w1 + h + ":" + m + w2) == Ok(TwoDigits(ParseDigits(h)) + ":" + m)
  {
    var x := h + ":" + m;
    var v := w1 + h + ":" + m + w2;
    assert v == w1 + x + w2;
    Hour24OfDigits(h);
    Trimmed24(x, h, m);
    TrimPadded(w1, x, w2);
    NormalizeTime24(v, x, h, m);
  }

  lemma {:induction false} Hour24OfDigits(h: string)
    requires 1 <= |h| <= 2 && AllDigits(h) && ParseDigits(h) <= 23
    ensures IsHour24(h) && PadStart2(h) == TwoDigits(ParseDigits(h))
  {
  }

  lemma {:induction false} Trimmed24(x: string, h: string, m: string)
    requires x == h + ":" + m && 1 <= |h| && AllDigits(h) && IsMinutes(m)
    ensures Trimmed(x)
  {
    assert x[0] == h[0] && x[|x| - 1] == m[1];
  }

  /** The hour a 12-hour time denotes on the 24-hour clock: 12 am is 00,
      12 pm is 12, h pm is h + 12 and h am is h. */
  function TwentyFourHourOf(hour: nat, pm: bool): nat {
    if hour == 12 then (if pm then 12 else 0) else (if pm then hour + 12 else hour)
  }

  /** Match12 captures the groups of any string the 12-hour pattern matches,
      and the 24-hour pattern does not match it. */
  lemma {:induction false} Match12Of(x: string, h: string, m: string, gap: string, meridiem: string)
    requires x == h + ":" + m + gap + meridiem
    requires IsHour12(h) && IsMinutes(m) && AllSpace(gap) && IsMeridiem(meridiem)
    ensures Match24(x) == None && Match12(x) == Some((h, m, meridiem))
  {
    var i := |h|;
    assert x[..i] == h && x[i] == ':';
    assert x[i + 1..i + 3] == m;
    assert x[i + 3..|x| - 2] == gap;
    assert x[|x| - 2..] == meridiem;
    if |h| == 2 { assert x[1] == h[1]; }
    assert ColonAt(x) == i;
    assert |x[i + 1..]| > 2;
  }

  /** The hour group of the 12-hour pattern is a number from 1 to 12. */
  lemma {:induction false} Hour12Value(h: string)
    requires IsHour12(h)
    ensures 1 <= |h| <= 2 && AllDigits(h) && 1 <= ParseDigits(h) <= 12
  {
  }

  /** hour % 12, plus 12 after noon, is the 24-hour reading of a 12-hour hour. */
  lemma {:induction false} Mod12Hour(hour: nat, pm: bool)
    requires 1 <= hour <= 12
    ensures (if pm then hour % 12 + 12 else hour % 12) == TwentyFourHourOf(hour, pm)
  {
  }

  /** The 24-hour value of a captured 12-hour hour and meridiem. */
  function Hour24Of12(h: string, meridiem: string): (n: nat)
    requires IsHour12(h)
    ensures n < 24
  {
    Hour12Value(h);
    TwentyFourHourOf(ParseDigits(h), ToLower(meridiem) == "pm")
  }

  /** What the 12-hour branch returns once the trimmed input is split. */
  lemma {:induction false} NormalizeTime12(value: string, t: string, h: string, m: string, meridiem: string)
    requires Trim(value) == t && Match24(t) == None && Match12(t) == Some((h, m, meridiem))
    ensures NormalizeTime(value) == Ok(TwoDigits(Hour24Of12(h, meridiem)) + ":" + m)
  {
    Hour12Value(h);
    var hour := ParseDigits(h);
    var pm := ToLower(meridiem) == "pm";
    var n := if pm then hour % 12 + 12 else hour % 12;
    Mod12Hour(hour, pm);
    Clock12(n, m);
  }

  lemma {:induction false} Hour12OfDigits(h: string)
    requires 1 <= |h| <= 2 && AllDigits(h) && 1 <= ParseDigits(h) <= 12
    ensures IsHour12(h)
  {
  }

  lemma {:induction false} Trimmed12(x: string, h: string, m: string, gap: string, meridiem: string)
    requires x == h + ":" + m + gap + meridiem && 1 <= |h| && AllDigits(h) && IsMeridiem(meridiem)
    ensures Trimmed(x)
  {
    assert x[0] == h[0] && x[|x| - 1] == meridiem[1];
  }

  /** A 12-hour time with an hour from 1 to 12, optional whitespace and am or
      pm in either case comes back as the zero-padded 24-hour time. */
  lemma {:induction false} TwelveHourTime(w1: string, h: string, m: string, gap: string, meridiem: string, w2: string)
    requires AllSpace(w1) && AllSpace(w2) && AllSpace(gap)
    requires 1 <= |h| <= 2 && AllDigits(h) && 1 <= ParseDigits(h) <= 12 && IsMinutes(m)
    requires ToLower(meridiem) == "am" || ToLower(meridiem) == "pm"
    ensures NormalizeTime(w1 + h + ":" + m + gap + meridiem + w2)
            == Ok(TwoDigits(TwentyFourHourOf(ParseDigits(h), ToLower(meridiem) == "pm")) + ":" + m)
  {
    var x := h + ":" + m + gap + meridiem;
    var v := w1 + h + ":" + m + gap + meridiem + w2;
    assert v == w1 + x + w2;
    assert |meridiem| == 2 && IsMeridiem(meridiem);
    Hour12OfDigits(h);
    Trimmed12(x, h, m, gap, meridiem);
    TrimPadded(w1, x, w2);
    Match12Of(x, h, m, gap, meridiem);
    NormalizeTime12(v, x, h, m, meridiem);
  }

  // ---------------------------------------------------------------------
  // Required fields

  /** The attributes of an Event document. */
  datatype EventAttrs = EventAttrs(
    title: string,
    slug: string,
    description: string,
    overview: string,
    image: string,
    venue: string,
    location: string,
    date: string,
    time: string,
    mode: string,
    audience: string,
    agenda: seq<string>,
    organizer: string,
    tags: seq<string>)

  /** requireNonEmptyString: a blank string fails with "<field> is required". */
  function RequireNonEmptyString(value: string, field: string): (r: Outcome<string>)
    ensures r == if AllSpace(value) then Fail(field + " is required") else Pass
  {
    TrimEmptyIff(value);
    if |Trim(value)| == 0 then Fail(field + " is required") else Pass
  }

  /** requireNonEmptyArray: an empty list fails with "<field> is required". */
  function RequireNonEmptyArray(value: seq<string>, field: string): (r: Outcome<string>)
    ensures r.Pass? <==> value != []
    ensures r.Fail? ==> r.error == field + " is required"
  {
    if |value| == 0 then Fail(field + " is required") else Pass
  }

  /** A required field: a labelled string or a labelled list. */
  datatype Field = TextField(name: string, text: string) | ListField(name: string, items: seq<string>)

  predicate Missing(f: Field) {
    match f
    case TextField(_, text) => AllSpace(text)
    case ListField(_, items) => items == []
  }

  /** The required fields in the order title, description, overview, image,
      venue, location, date, time, mode, audience, organizer, agenda, tags. */
  function RequiredFields(a: EventAttrs): seq<Field> {
    [ TextField("Title", a.title), TextField("Description", a.description),
      TextField("Overview", a.overview), TextField("Image", a.image),
      TextField("Venue", a.venue), TextField("Location", a.location),
      TextField("Date", a.date), TextField("Time", a.time),
      TextField("Mode", a.mode), TextField("Audience", a.audience),
      TextField("Organizer", a.organizer), ListField("Agenda", a.agenda),
      ListField("Tags", a.tags) ]
  }

  /** The guard for one field: requireNonEmptyString for a string,
      requireNonEmptyArray for a list. */
  function Check(f: Field): (r: Outcome<string>)
    ensures r == if Missing(f) then Fail(f.name + " is required") else Pass
  {
    match f
    case TextField(name, text) => RequireNonEmptyString(text, name)
    case ListField(name, items) => RequireNonEmptyArray(items, name)
  }

  /** Guards run one after another; the first that fails decides the result. */
  function CheckAll(fs: seq<Field>): Outcome<string> {
    if fs == [] then Pass
    else
      :- Check(fs[0]);
      CheckAll(fs[1..])
  }

  /** The guards at the head of the pre-save hook, in source order. */
  function CheckRequired(a: EventAttrs): Outcome<string> {
    CheckAll(RequiredFields(a))
  }

  /** The index of the first missing field, or |fs| when none is. */
  function FirstMissing(fs: seq<Field>): (i: nat)
    ensures i <= |fs|
    ensures forall j :: 0 <= j < i ==> !Missing(fs[j])
    ensures i < |fs| ==> Missing(fs[i])
  {
    if fs == [] then 0 else if Missing(fs[0]) then 0 else 1 + FirstMissing(fs[1..])
  }

  /** A run of guards reports the first missing field, and passes when none is. */
  lemma {:induction false} CheckAllReportsFirst(fs: seq<Field>)
    ensures var i := FirstMissing(fs);
      CheckAll(fs) == if i == |fs| then Pass else Fail(fs[i].name + " is required")
  {
    if fs != [] && !Missing(fs[0]) {
      CheckAllReportsFirst(fs[1..]);
      assert FirstMissing(fs) == 1 + FirstMissing(fs[1..]);
    }
  }

  /** The guards pass exactly when no required field is missing, and otherwise
      report the first missing field in source order. */
  lemma {:induction false} CheckRequiredReportsFirst(a: EventAttrs)
    ensures var fs := RequiredFields(a); var i := FirstMissing(fs);
      CheckRequired(a) == if i == |fs| then Pass else Fail(fs[i].name + " is required")
  {
    CheckAllReportsFirst(RequiredFields(a));
  }

  // ---------------------------------------------------------------------
  // The pre-save hook

  /** The attributes and the outcome the pre-save hook leaves behind, for a
      document with attributes a whose title was modified or not, given the
      date normaliser (None where it throws "Invalid date format"). */
  function PreSaveEffect(a: EventAttrs, titleModified: bool, normalizeDate: string -> Option<string>)
    : (EventAttrs, Outcome<string>)
  {
    match CheckRequired(a)
    case Fail(e) => (a, Fail(e))
    case Pass =>
      match normalizeDate(a.date)
      case None => (a, Fail("Invalid date format"))
      case Some(date) =>
        match NormalizeTime(a.time)
        case Err(e) => (a.(date := date), Fail(e))
        case Ok(time) =>
          var slug := if titleModified then Slugify(a.title) else a.slug;
          (a.(date := date, time := time, slug := slug), Pass)
  }

  /** The hook's verdict: the first missing required field, else a date the
      normaliser rejects, else a time outside both patterns, else success. */
  lemma {:induction false} PreSaveVerdict(a: EventAttrs, titleModified: bool, normalizeDate: string -> Option<string>)
    ensures var fs := RequiredFields(a); var i := FirstMissing(fs);
      PreSaveEffect(a, titleModified, normalizeDate).1 ==
        if i < |fs| then Fail(fs[i].name + " is required")
        else if normalizeDate(a.date).None? then Fail("Invalid date format")
        else if !(Matches24(Trim(a.time)) || Matches12(Trim(a.time))) then Fail("Invalid time format")
        else Pass
  {
    PreSaveOutcome(a, titleModified, normalizeDate);
    CheckRequiredReportsFirst(a);
    NormalizeTimeAcceptsIff(a.time);
  }

  /** The hook's verdict in terms of the guards and the two normalisers. */
  lemma {:induction false} PreSaveOutcome(a: EventAttrs, titleModified: bool, normalizeDate: string -> Option<string>)
    ensures PreSaveEffect(a, titleModified, normalizeDate).1 ==
      if CheckRequired(a).Fail? then CheckRequired(a)
      else if normalizeDate(a.date).None? then Fail("Invalid date format")
      else if NormalizeTime(a.time).Err? then Fail("Invalid time format")
      else Pass
  {
  }

  /** What a successful save leaves: the date as the normaliser gives it, a
      canonical HH:MM time, a well-formed slug derived from the title when the
      title was modified, and every other attribute as it was. A failed save
      changes at most the date. */
  lemma {:induction false} PreSaveAttributes(a: EventAttrs, titleModified: bool, normalizeDate: string -> Option<string>)
    ensures var (b, r) := PreSaveEffect(a, titleModified, normalizeDate);
      && (r.Fail? ==> b.(date := a.date) == a)
      && (r.Pass? ==>
            && normalizeDate(a.date) == Some(b.date)
            && IsClockTime(b.time)
            && b.slug == (if titleModified then Slugify(a.title) else a.slug)
            && b.(date := a.date, time := a.time, slug := a.slug) == a)
  {
    var e := PreSaveEffect(a, titleModified, normalizeDate);
    if CheckRequired(a).Fail? || normalizeDate(a.date).None? {
      assert e.0 == a;
    } else if NormalizeTime(a.time).Err? {
      assert e.0 == a.(date := normalizeDate(a.date).value);
    } else {
      PreSaveCompletes(a, titleModified, normalizeDate);
      RestoreAttrs(a, normalizeDate(a.date).value, NormalizeTime(a.time).value,
        if titleModified then Slugify(a.title) else a.slug);
    }
  }

  lemma {:induction false} RestoreAttrs(a: EventAttrs, date: string, time: string, slug: string)
    ensures a.(date := date, time := time, slug := slug).(date := a.date, time := a.time, slug := a.slug) == a
  {
  }

  /** The slug a successful save leaves is well formed whenever it was
      derived from the title. */
  lemma {:induction false} PreSaveSlug(a: EventAttrs, normalizeDate: string -> Option<string>)
    requires PreSaveEffect(a, true, normalizeDate).1.Pass?
    ensures IsSlug(PreSaveEffect(a, true, normalizeDate).0.slug)
  {
    PreSaveAttributes(a, true, normalizeDate);
  }

  /** Saving a document a second time changes nothing, provided the date
      normaliser accepts its own output and never produces a blank date. */
  lemma {:induction false} PreSaveIdempotent(a: EventAttrs, titleModified: bool, normalizeDate: string -> Option<string>)
    requires forall d :: normalizeDate(d).Some? ==>
      normalizeDate(normalizeDate(d).value) == normalizeDate(d) && !AllSpace(normalizeDate(d).value)
    requires PreSaveEffect(a, titleModified, normalizeDate).1.Pass?
    ensures var b := PreSaveEffect(a, titleModified, normalizeDate).0;
      PreSaveEffect(b, titleModified, normalizeDate) == (b, Pass)
  {
    var b := PreSaveEffect(a, titleModified, normalizeDate).0;
    PreSaveAttributes(a, titleModified, normalizeDate);
    ClockTimeNotBlank(b.time);
    CheckRequiredRenormalised(a, b);
    NormalizeTimeOfClockTime(b.time);
    PreSaveCompletes(b, titleModified, normalizeDate);
  }

  lemma {:induction false} ClockTimeNotBlank(s: string)
    requires IsClockTime(s)
    ensures !AllSpace(s)
  {
    assert !IsSpace(s[0]);
  }

  /** Re-normalising the date, time and slug does not make a required field
      go missing, as long as the new date and time are not blank. */
  lemma {:induction false} CheckRequiredRenormalised(a: EventAttrs, b: EventAttrs)
    requires b.(date := a.date, time := a.time, slug := a.slug) == a
    requires CheckRequired(a).Pass? && !AllSpace(b.date) && !AllSpace(b.time)
    ensures CheckRequired(b).Pass?
  {
    CheckRequiredPasses(a);
    CheckRequiredPasses(b);
  }

  /** The guards pass exactly when every required string has a non-blank
      character and both lists have an entry. */
  lemma {:induction false} CheckRequiredPasses(a: EventAttrs)
    ensures CheckRequired(a).Pass? <==>
      && !AllSpace(a.title) && !AllSpace(a.description) && !AllSpace(a.overview)
      && !AllSpace(a.image) && !AllSpace(a.venue) && !AllSpace(a.location)
      && !AllSpace(a.date) && !AllSpace(a.time) && !AllSpace(a.mode)
      && !AllSpace(a.audience) && !AllSpace(a.organizer) && a.agenda != [] && a.tags != []
  {
    var fs := RequiredFields(a);
    CheckRequiredReportsFirst(a);
    var i := FirstMissing(fs);
    if i < |fs| {
      assert i == 0 || i == 1 || i == 2 || i == 3 || i == 4 || i == 5 || i == 6
        || i == 7 || i == 8 || i == 9 || i == 10 || i == 11 || i == 12;
    } else {
      assert !Missing(fs[0]) && !Missing(fs[1]) && !Missing(fs[2]) && !Missing(fs[3])
        && !Missing(fs[4]) && !Missing(fs[5]) && !Missing(fs[6]) && !Missing(fs[7])
        && !Missing(fs[8]) && !Missing(fs[9]) && !Missing(fs[10]) && !Missing(fs[11])
        && !Missing(fs[12]);
    }
  }

  lemma {:induction false} PreSaveCompletes(a: EventAttrs, titleModified: bool, normalizeDate: string -> Option<string>)
    requires CheckRequired(a).Pass? && normalizeDate(a.date).Some? && NormalizeTime(a.time).Ok?
    ensures PreSaveEffect(a, titleModified, normalizeDate) ==
      (a.(date := normalizeDate(a.date).value, time := NormalizeTime(a.time).value,
          slug := if titleModified then Slugify(a.title) else a.slug), Pass)
  {
  }

  // ---------------------------------------------------------------------
  // Validation and the hook on save()

  /** The message of the ValidationError save() rejects with when the slug
      is missing: the model's name, then the path and the required
      validator's own message. */
  const SlugRequired: string := "Event validation failed: slug: Path `slug` is required."

  /** save() as the schema is written. Mongoose validates a document before
      any pre-save hook runs, so the slug's required validator sees the slug
      the document was given, not the one the hook would derive from the
      title; only when it passes does the hook run. */
  function SaveAsWritten(a: EventAttrs, titleModified: bool, normalizeDate: string -> Option<string>)
    : (EventAttrs, Outcome<string>)
  {
    if a.slug == "" then (a, Fail(SlugRequired))
    else PreSaveEffect(a, titleModified, normalizeDate)
  }

  /** A new event with no slug of its own, which is what every creation
      request sends, is refused even when the hook would accept it and derive
      a well-formed, non-empty slug from its title. */
  lemma {:induction false} NewEventRefusedAsWritten(a: EventAttrs, normalizeDate: string -> Option<string>)
    requires a.slug == ""
    ensures SaveAsWritten(a, true, normalizeDate).1 == Fail(SlugRequired)
    ensures PreSaveEffect(a, true, normalizeDate).1.Pass? ==>
      IsSlug(PreSaveEffect(a, true, normalizeDate).0.slug)
  {
    if PreSaveEffect(a, true, normalizeDate).1.Pass? {
      PreSaveSlug(a, normalizeDate);
    }
  }

  /** save() in the order the schema evidently intends: the hook derives the
      slug first (as a pre-validate hook would), and the required validator
      then checks the slug that will be stored. */
  function SaveCorrected(a: EventAttrs, titleModified: bool, normalizeDate: string -> Option<string>)
    : (EventAttrs, Outcome<string>)
  {
    var (b, v) := PreSaveEffect(a, titleModified, normalizeDate);
    if v.Fail? then (b, v)
    else if b.slug == "" then (b, Fail(SlugRequired))
    else (b, Pass)
  }

  /** In the corrected order a new event is stored exactly when the hook
      accepts it and its title holds an ASCII letter or digit, and it is
      stored with the well-formed slug of its title. */
  lemma {:induction false} NewEventSavesCorrected(a: EventAttrs, normalizeDate: string -> Option<string>)
    ensures var (b, r) := SaveCorrected(a, true, normalizeDate);
      && (r.Pass? <==>
            PreSaveEffect(a, true, normalizeDate).1.Pass?
            && exists i :: 0 <= i < |a.title| && IsSlugChar(LowerChar(a.title[i])))
      && (r.Pass? ==> b.slug == Slugify(a.title) && b.slug != "" && IsSlug(b.slug))
  {
    PreSaveAttributes(a, true, normalizeDate);
    SlugEmptyIff(a.title);
    if PreSaveEffect(a, true, normalizeDate).1.Pass? {
      PreSaveSlug(a, normalizeDate);
    }
  }

  /** Where the document already has a slug and its title is unchanged, the
      corrected order decides exactly as the written one. */
  lemma {:induction false} SaveCorrectedAgrees(a: EventAttrs, normalizeDate: string -> Option<string>)
    requires a.slug != ""
    ensures SaveCorrected(a, false, normalizeDate) == SaveAsWritten(a, false, normalizeDate)
  {
    PreSaveAttributes(a, false, normalizeDate);
  }

  /** An Event document as the pre-save hook sees it. Its attributes are
      held in one record, as Mongoose keeps a document's values in one
      underlying object behind the attribute accessors. */
  class EventDocument {
    var attrs: EventAttrs
    /** Mongoose's isModified("title"): the title was set or changed since the
        document was loaded. */
    var titleModified: bool

    constructor (a: EventAttrs, titleModified: bool)
      ensures attrs == a && this.titleModified == titleModified
    {
      attrs := a;
      this.titleModified := titleModified;
    }

    /** The pre-save hook: the required-field guards, then the date, then the
        time are normalised in place, and the slug is derived from the title
        only when the title was modified. A failing time leaves the already
        normalised date in place. */
    method PreSave(normalizeDate: string -> Option<string>) returns (r: Outcome<string>)
      modifies this
      ensures titleModified == old(titleModified)
      ensures (attrs, r) == PreSaveEffect(old(attrs), titleModified, normalizeDate)
    {
      r := CheckRequired(attrs);
      if r.Fail? {
        return;
      }
      var d := normalizeDate(attrs.date);
      if d.None? {
        return Fail("Invalid date format");
      }
      attrs := attrs.(date := d.value);
      var t := NormalizeTime(attrs.time);
      if t.Err? {
        return Fail(t.error);
      }
      attrs := attrs.(time := t.value);
      if titleModified {
        attrs := attrs.(slug := Slugify(attrs.title));
      }
      return Pass;
    }
  }
}

=== FILE: events_route.dfy ===
/** The /api/events route. POST reads an event from a JSON or form request,
    normalises a few fields, uploads the image and creates the Event; GET
    lists the stored events newest first. The database, the environment and
    the image host appear as parameters standing for how each call ends. */
module EventsRoute {
  import opened Wrappers
  import opened Text
  import opened Json
  import opened MongoDb

  // ---------------------------------------------------------------------
  // unquote

  /** value.replace(/^"|"$/g, ''): one '"' at the start and one at the end
      are dropped. */
  function StripQuotes(s: string): (r: string)
    ensures |r| <= |s|
  {
    var a := if s != [] && s[0] == '"' then s[1..] else s;
    if a != [] && a[|a| - 1] == '"' then a[..|a| - 1] else a
  }

  /** The route's unquote: trim, drop the surrounding quotes, trim again. */
  function Unquote(value: string): (r: string)
    ensures Trimmed(r) && |r| <= |value|
  {
    Trim(StripQuotes(Trim(value)))
  }

  /** A value written with quotes and whitespace around it comes back bare. */
  lemma {:induction false} UnquoteQuoted(w1: string, x: string, w2: string)
    requires AllSpace(w1) && AllSpace(w2) && Trimmed(x)
    ensures Unquote(w1 + "\"" + x + "\"" + w2) == x
  {
    var q := "\"" + x + "\"";
    assert w1 + "\"" + x + "\"" + w2 == w1 + q + w2;
    TrimPadded(w1, q, w2);
    StripQuotesOf(x);
    TrimOfTrimmed(x);
  }

  lemma {:induction false} StripQuotesOf(x: string)
    ensures StripQuotes("\"" + x + "\"") == x
  {
    var q := "\"" + x + "\"";
    assert q[1..] == x + "\"";
    assert (x + "\"")[..|x|] == x;
  }

  /** A value with no surrounding whitespace and no surrounding quote is
      left as it is. */
  lemma {:induction false} UnquoteBare(v: string)
    requires Trimmed(v) && (v == [] || (v[0] != '"' && v[|v| - 1] != '"'))
    ensures Unquote(v) == v
  {
    TrimOfTrimmed(v);
    assert StripQuotes(v) == v;
    assert StripQuotes(Trim(v)) == v;
  }

  // ---------------------------------------------------------------------
  // The event record

  /** A value of the event record: JSON (every text form field is a JSON
      string) or an uploaded file, known by its name. */
  datatype Value = JsonValue(json: Json) | FileValue(name: string)

  /** A form field: text or a file. */
  datatype FormValue = FormText(text: string) | FormFile(name: string)

  /** The event record the route builds, keyed by field name. */
  type Record = map<string, Value>

  function Str(s: string): Value {
    JsonValue(JString(s))
  }

  function ToValue(v: FormValue): Value {
    match v
    case FormText(s) => Str(s)
    case FormFile(n) => FileValue(n)
  }

  /** The object built from key/value pairs in order, a later pair of the
      same key replacing an earlier one (Object.fromEntries, and JSON.parse
      on repeated member names). */
  function LastWins(pairs: seq<(string, Value)>): (m: Record)
    ensures forall k :: k in m <==> exists i :: 0 <= i < |pairs| && pairs[i].0 == k
  {
    if pairs == [] then map[]
    else
      var init := pairs[..|pairs| - 1];
      var m := LastWins(init);
      assert forall i :: 0 <= i < |init| ==> init[i] == pairs[i];
      m[pairs[|pairs| - 1].0 := pairs[|pairs| - 1].1]
  }

  /** A key holds the value of its last pair. */
  lemma {:induction false} LastWinsValue(pairs: seq<(string, Value)>, i: nat)
    requires i < |pairs|
    requires forall j :: i < j < |pairs| ==> pairs[j].0 != pairs[i].0
    ensures LastWins(pairs)[pairs[i].0] == pairs[i].1
  {
    if i < |pairs| - 1 {
      var init := pairs[..|pairs| - 1];
      LastWinsValue(init, i);
    }
  }

  function Pairs(entries: seq<(string, FormValue)>): (r: seq<(string, Value)>)
    ensures |r| == |entries|
    ensures forall i :: 0 <= i < |entries| ==> r[i] == (entries[i].0, ToValue(entries[i].1))
  {
    seq(|entries|, i requires 0 <= i < |entries| => (entries[i].0, ToValue(entries[i].1)))
  }

  /** Object.fromEntries(formData.entries()). */
  function FromEntries(entries: seq<(string, FormValue)>): Record {
    LastWins(Pairs(entries))
  }

  /** The record a parsed JSON body gives: an object's members; a string,
      number, boolean or array has none of the fields the route reads. */
  function ObjectRecord(j: Json): Record {
    match j
    case JObject(members) =>
      LastWins(seq(|members|, i requires 0 <= i < |members| => (members[i].0, JsonValue(members[i].1))))
    case _ => map[]
  }

  /** formData.get(name): the first entry of that name, null when there is none. */
  function FormGet(entries: seq<(string, FormValue)>, name: string): (r: Option<FormValue>)
    ensures r.None? <==> forall i :: 0 <= i < |entries| ==> entries[i].0 != name
  {
    if entries == [] then None
    else if entries[0].0 == name then Some(entries[0].1)
    else FormGet(entries[1..], name)
  }

  /** Entries of other names in front do not change what get returns. */
  lemma {:induction false} FormGetSkip(front: seq<(string, FormValue)>, back: seq<(string, FormValue)>, name: string)
    requires forall i :: 0 <= i < |front| ==> front[i].0 != name
    ensures FormGet(front + back, name) == FormGet(back, name)
  {
    if front != [] {
      assert (front + back)[0] == front[0];
      assert (front + back)[1..] == front[1..] + back;
      FormGetSkip(front[1..], back, name);
    } else {
      assert front + back == back;
    }
  }

  /** get returns the value of the first entry of a name. */
  lemma {:induction false} FormGetFirst(entries: seq<(string, FormValue)>, i: nat)
    requires i < |entries|
    requires forall j :: 0 <= j < i ==> entries[j].0 != entries[i].0
    ensures FormGet(entries, entries[i].0) == Some(entries[i].1)
  {
    if i > 0 {
      FormGetFirst(entries[1..], i - 1);
    }
  }

  /** For a name that occurs once, get and fromEntries see the same value;
      for a repeated name get keeps the first and fromEntries the last. */
  lemma {:induction false} FormGetAgrees(entries: seq<(string, FormValue)>, i: nat)
    requires i < |entries|
    requires forall j :: 0 <= j < |entries| && j != i ==> entries[j].0 != entries[i].0
    ensures FormGet(entries, entries[i].0) == Some(entries[i].1)
    ensures entries[i].0 in FromEntries(entries)
    ensures FromEntries(entries)[entries[i].0] == ToValue(entries[i].1)
  {
    FormGetFirst(entries, i);
    LastWinsValue(Pairs(entries), i);
  }

  /** The string the record holds under key, if it holds a string there. */
  function StringAt(e: Record, key: string): Option<string> {
    if key in e && e[key].JsonValue? && e[key].json.JString? then Some(e[key].json.s) else None
  }

  // ---------------------------------------------------------------------
  // Normalisation of the record

  /** The record with the value under key replaced, when there is a
      replacement. */
  function Replace(e: Record, key: string, v: Option<Value>): Record {
    if v.Some? then e[key := v.value] else e
  }

  /** Replacing one key leaves every other key as it was. */
  lemma {:induction false} ReplaceFrame(e: Record, key: string, v: Option<Value>, k: string)
    requires k != key
    ensures k in Replace(e, key, v) <==> k in e
    ensures k in e ==> Replace(e, key, v)[k] == e[k]
    ensures StringAt(Replace(e, key, v), k) == StringAt(e, k)
  {
  }

  /** The string under key unquoted, and lower-cased when lower is set. */
  function Unquoted(e: Record, key: string, lower: bool): Option<Value> {
    match StringAt(e, key)
    case None => None
    case Some(s) => Some(Str(if lower then ToLower(Unquote(s)) else Unquote(s)))
  }

  function UnquoteAt(e: Record, key: string, lower: bool): Record {
    Replace(e, key, Unquoted(e, key, lower))
  }

  /** mode unquoted and lower-cased, time and date unquoted. */
  function NormalizeScalars(e: Record): Record {
    UnquoteAt(UnquoteAt(UnquoteAt(e, "mode", true), "time", false), "date", false)
  }

  predicate IsArray(p: Option<Json>) {
    p.Some? && p.value.JArray?
  }

  /** What the route makes of a string held by a list field: the array it
      parses to as JSON, else its trimmed non-empty comma-separated pieces,
      else the one trimmed value. None leaves the field as it is. */
  function CoerceList(value: string): Option<Json> {
    var parsed := Parse(value);
    if IsArray(parsed) then parsed
    else if Includes(value, ",") then Some(StringArray(TrimmedPieces(value, {','})))
    else if |Trim(value)| > 0 then Some(StringArray([Trim(value)]))
    else None
  }

  /** The list the string under key coerces to, if any. */
  function Coerced(e: Record, key: string): Option<Value> {
    match StringAt(e, key)
    case None => None
    case Some(s) =>
      match CoerceList(s)
      case None => None
      case Some(j) => Some(JsonValue(j))
  }

  function CoerceAt(e: Record, key: string): Record {
    Replace(e, key, Coerced(e, key))
  }

  /** The list fields coerced one after the other. */
  function CoerceFields(e: Record, fields: seq<string>): Record {
    if fields == [] then e
    else CoerceAt(CoerceFields(e, fields[..|fields| - 1]), fields[|fields| - 1])
  }

  /** The fields the route reads as lists, in the order it visits them. */
  const ListFields: seq<string> := ["agenda", "tags"]

  /** The record after the normalisation step. */
  function NormalizeRecord(e: Record): Record {
    CoerceFields(NormalizeScalars(e), ListFields)
  }

  lemma {:induction false} NormalizeRecordSteps(e: Record)
    ensures NormalizeRecord(e) == CoerceAt(CoerceAt(NormalizeScalars(e), "agenda"), "tags")
  {
    var s := NormalizeScalars(e);
    assert ListFields[..1] == ["agenda"];
    assert ListFields[..|ListFields| - 1] == ["agenda"];
    assert CoerceFields(s, ["agenda"]) == CoerceAt(CoerceFields(s, []), "agenda");
  }

  /** The mode step: a string mode is unquoted and lower-cased. */
  method LowerField(e: Record, key: string) returns (event: Record)
    ensures event == UnquoteAt(e, key, true)
  {
    event := e;
    if key in e && e[key].JsonValue? && e[key].json.JString? {
      var u := Unquote(e[key].json.s);
      event := e[key := Str(ToLower(u))];
    }
  }

  /** The time and date steps: a string value is unquoted. */
  method UnquoteField(e: Record, key: string) returns (event: Record)
    ensures event == UnquoteAt(e, key, false)
  {
    event := e;
    if key in e && e[key].JsonValue? && e[key].json.JString? {
      var u := Unquote(e[key].json.s);
      event := e[key := Str(u)];
    }
  }

  /** One turn of the loop over the list fields. */
  method CoerceField(e: Record, field: string) returns (event: Record)
    ensures event == CoerceAt(e, field)
  {
    event := e;
    var value := StringAt(event, field);
    if value.Some? {
      var coerced := CoerceList(value.value);
      if coerced.Some? {
        event := event[field := JsonValue(coerced.value)];
      }
    }
  }

  /** The normalisation step, field by field. */
  method NormalizeEvent(e: Record) returns (event: Record)
    ensures event == NormalizeRecord(e)
  {
    event := LowerField(e, "mode");
    event := UnquoteField(event, "time");
    event := UnquoteField(event, "date");
    ghost var scalars := event;
    for i := 0 to |ListFields|
      invariant event == CoerceFields(scalars, ListFields[..i])
    {
      var field := ListFields[i];
      assert ListFields[..i + 1][..i] == ListFields[..i];
      event := CoerceField(event, field);
      assert CoerceFields(scalars, ListFields[..i + 1]) == CoerceAt(CoerceFields(scalars, ListFields[..i]), field);
    }
    assert ListFields[..|ListFields|] == ListFields;
  }

  /** Normalisation keeps the keys, and a key that holds no string, or is
      none of mode, time, date, agenda and tags, keeps its value. */
  lemma {:induction false} NormalizeRecordFrame(e: Record, k: string)
    ensures k in NormalizeRecord(e) <==> k in e
    ensures k in e && StringAt(e, k).None? ==> NormalizeRecord(e)[k] == e[k]
    ensures k in e && k !in {"mode", "time", "date", "agenda", "tags"} ==> NormalizeRecord(e)[k] == e[k]
  {
    NormalizeRecordSteps(e);
    var e1 := UnquoteAt(e, "mode", true);
    var e2 := UnquoteAt(e1, "time", false);
    var e3 := UnquoteAt(e2, "date", false);
    var e4 := CoerceAt(e3, "agenda");
    if k !in {"mode", "time", "date", "agenda", "tags"} {
      ReplaceFrame(e, "mode", Unquoted(e, "mode", true), k);
      ReplaceFrame(e1, "time", Unquoted(e1, "time", false), k);
      ReplaceFrame(e2, "date", Unquoted(e2, "date", false), k);
      ReplaceFrame(e3, "agenda", Coerced(e3, "agenda"), k);
      ReplaceFrame(e4, "tags", Coerced(e4, "tags"), k);
    } else {
      NormalizeRecordFrameAt(e, k);
    }
  }

  lemma {:induction false} NormalizeRecordFrameAt(e: Record, k: string)
    requires k in {"mode", "time", "date", "agenda", "tags"}
    ensures k in NormalizeRecord(e) <==> k in e
    ensures k in e && StringAt(e, k).None? ==> NormalizeRecord(e)[k] == e[k]
  {
    NormalizeRecordSteps(e);
    var e1 := UnquoteAt(e, "mode", true);
    var e2 := UnquoteAt(e1, "time", false);
    var e3 := UnquoteAt(e2, "date", false);
    var e4 := CoerceAt(e3, "agenda");
    if k != "mode" { ReplaceFrame(e, "mode", Unquoted(e, "mode", true), k); }
    if k != "time" { ReplaceFrame(e1, "time", Unquoted(e1, "time", false), k); }
    if k != "date" { ReplaceFrame(e2, "date", Unquoted(e2, "date", false), k); }
    if k != "agenda" { ReplaceFrame(e3, "agenda", Coerced(e3, "agenda"), k); }
    if k != "tags" { ReplaceFrame(e4, "tags", Coerced(e4, "tags"), k); }
  }

  /** mode, time and date lose their quotes and surrounding whitespace, and
      mode is lower-cased. */
  lemma {:induction false} NormalizeRecordScalars(e: Record, key: string)
    requires key in {"mode", "time", "date"} && StringAt(e, key).Some?
    ensures key in NormalizeRecord(e)
    ensures var s := StringAt(e, key).value;
      NormalizeRecord(e)[key] == Str(if key == "mode" then ToLower(Unquote(s)) else Unquote(s))
  {
    NormalizeRecordSteps(e);
    var e1 := UnquoteAt(e, "mode", true);
    var e2 := UnquoteAt(e1, "time", false);
    var e3 := UnquoteAt(e2, "date", false);
    var e4 := CoerceAt(e3, "agenda");
    ReplaceFrame(e3, "agenda", Coerced(e3, "agenda"), key);
    ReplaceFrame(e4, "tags", Coerced(e4, "tags"), key);
    if key == "mode" {
      ReplaceFrame(e1, "time", Unquoted(e1, "time", false), key);
      ReplaceFrame(e2, "date", Unquoted(e2, "date", false), key);
    } else if key == "time" {
      ReplaceFrame(e, "mode", Unquoted(e, "mode", true), key);
      ReplaceFrame(e2, "date", Unquoted(e2, "date", false), key);
    } else {
      ReplaceFrame(e, "mode", Unquoted(e, "mode", true), key);
      ReplaceFrame(e1, "time", Unquoted(e1, "time", false), key);
    }
  }

  /** agenda and tags, when they hold a string, become the list CoerceList
      gives, or stay as they are when it gives none. */
  lemma {:induction false} NormalizeRecordLists(e: Record, k: string)
    requires k in ListFields && StringAt(e, k).Some?
    ensures k in NormalizeRecord(e)
    ensures NormalizeRecord(e)[k] == (match CoerceList(StringAt(e, k).value)
                                      case None => e[k]
                                      case Some(j) => JsonValue(j))
  {
    NormalizeRecordSteps(e);
    var e1 := UnquoteAt(e, "mode", true);
    var e2 := UnquoteAt(e1, "time", false);
    var e3 := UnquoteAt(e2, "date", false);
    var e4 := CoerceAt(e3, "agenda");
    ReplaceFrame(e, "mode", Unquoted(e, "mode", true), k);
    ReplaceFrame(e1, "time", Unquoted(e1, "time", false), k);
    ReplaceFrame(e2, "date", Unquoted(e2, "date", false), k);
    if k == "tags" {
      ReplaceFrame(e3, "agenda", Coerced(e3, "agenda"), k);
    } else {
      ReplaceFrame(e4, "tags", Coerced(e4, "tags"), k);
    }
  }

  /** The mode that normalisation writes has no surrounding whitespace and
      no upper-case ASCII letter. */
  lemma {:induction false} NormalizedMode(v: string)
    ensures var m := ToLower(Unquote(v));
      Trimmed(m) && forall i :: 0 <= i < |m| ==> !('A' <= m[i] <= 'Z')
  {
    LowerTrimmed(Unquote(v));
  }

  /** The pieces a comma list coerces to are non-empty, carry no surrounding
      whitespace and hold no comma; a value is left alone exactly when it
      is blank (and so not a JSON array). */
  lemma {:induction false} CoerceListShape(value: string)
    ensures CoerceList(value).None? <==> !IsArray(Parse(value)) && AllSpace(value)
    ensures CoerceList(value).Some? ==> CoerceList(value).value.JArray?
    ensures !IsArray(Parse(value)) && Includes(value, ",") ==>
      CoerceList(value) == Some(StringArray(TrimmedPieces(value, {','})))
      && forall k :: 0 <= k < |TrimmedPieces(value, {','})| ==>
           var p := TrimmedPieces(value, {','})[k]; p != [] && Trimmed(p) && ',' !in p
  {
    TrimEmptyIff(value);
    TrimmedPiecesShape(value, {','});
    IncludesChar(value, ',');
  }

  /** A JSON array the client sends as text is read back as the same list. */
  lemma {:induction false} CoerceListOfStringify(xs: seq<string>)
    ensures CoerceList(StringifyStrings(xs)) == Some(StringArray(xs))
  {
    StringifyRoundTrip(xs);
  }

  /** Items joined with commas (no item blank, padded, holding a comma, or
      starting with '[') come back as the same list. */
  lemma {:induction false} CoerceListOfJoin(xs: seq<string>)
    requires |xs| >= 1
    requires forall k :: 0 <= k < |xs| ==> xs[k] != [] && Trimmed(xs[k]) && Avoids(xs[k], {','})
    requires xs[0][0] != '['
    ensures CoerceList(Join(xs, ',')) == Some(StringArray(xs))
  {
    var s := Join(xs, ',');
    NotArrayText(s);
    TrimmedPiecesOfJoin(xs, ',', {','});
    if |xs| == 1 {
      assert s == xs[0];
      IncludesChar(s, ',');
      TrimOfTrimmed(xs[0]);
    } else {
      assert s == xs[0] + [','] + Join(xs[1..], ',');
      assert s[|xs[0]|] == ',';
      IncludesChar(s, ',');
    }
  }

  /** Text that starts with neither whitespace nor '[' is not a JSON array. */
  lemma {:induction false} NotArrayText(s: string)
    requires s != [] && !IsSpace(s[0]) && s[0] != '['
    ensures !IsArray(Parse(s))
  {
    assert SkipWs(s) == s;
  }

  // ---------------------------------------------------------------------
  // POST

  /** A thrown value, as the catch-all reads it: an Error has a message,
      anything else reports "Unknown". */
  datatype Thrown = ErrorThrown(message: string) | OtherThrown

  function ThrownMessage(t: Thrown): string {
    match t
    case ErrorThrown(m) => m
    case OtherThrown => "Unknown"
  }

  /** A JSON response: its status, its message and its error field. */
  datatype Response = Response(status: int, message: string, error: Option<string>)

  const CreationFailed: string := "Event creation failed"

  /** The message of the SyntaxError JSON.parse throws on text that is not
      JSON; its wording is the JavaScript engine's. */
  const JsonSyntaxError: string := "Unexpected token in JSON"

  /** The catch-all response. */
  function Caught(t: Thrown): Response {
    Response(400, CreationFailed, Some(ThrownMessage(t)))
  }

  /** The three Cloudinary settings read from the environment at start-up. */
  datatype CloudinaryEnv = CloudinaryEnv(cloudName: Option<string>, apiKey: Option<string>, apiSecret: Option<string>)

  /** A setting counts when it is present and not empty. */
  predicate IsSet(v: Option<string>) {
    v.Some? && v.value != ""
  }

  predicate Configured(env: CloudinaryEnv) {
    IsSet(env.cloudName) && IsSet(env.apiKey) && IsSet(env.apiSecret)
  }

  datatype BodyKind = JsonBody | FormBody | OtherBody

  /** How the route reads the body, from the content-type header (absent
      reads as the empty string). */
  function KindOf(contentType: Option<string>): BodyKind {
    var ct := if contentType.Some? then contentType.value else "";
    if Includes(ct, "application/json") then JsonBody
    else if Includes(ct, "multipart/form-data") || Includes(ct, "application/x-www-form-urlencoded") then FormBody
    else OtherBody
  }

  /** The content type a browser gives a FormData body (the boundary is
      made of letters, digits and dashes, so holds no '/') is read as a form. */
  lemma {:induction false} MultipartIsForm(boundary: string)
    requires '/' !in boundary
    ensures KindOf(Some(MultipartPrefix + boundary)) == FormBody
  {
    var ct := MultipartPrefix + boundary;
    assert ct[..19] == "multipart/form-data";
    assert OccursAt(ct, "multipart/form-data", 0);
    forall i | 0 <= i <= |ct| ensures !OccursAt(ct, "application/json", i) {
      if i + 16 <= |ct| {
        assert ct[i + 11] != '/' by {
          if i + 11 < |MultipartPrefix| {
            assert ct[i + 11] == MultipartPrefix[i + 11];
          } else {
            assert ct[i + 11] == boundary[i + 11 - |MultipartPrefix|];
          }
        }
        assert "application/json"[11] == '/';
      }
    }
  }

  const MultipartPrefix: string := "multipart/form-data; boundary="

  /** A request: its content-type header, its body as text (what req.json()
      parses) and what req.formData() gives, the entries in order or the
      message of the error it throws. */
  datatype Request = Request(contentType: Option<string>, body: string,
                             form: Result<seq<(string, FormValue)>, string>)

  /** String(v) for what formData.get returns: "null", the text, or the
      string a File converts to. */
  function RawText(v: Option<FormValue>): string {
    match v
    case None => "null"
    case Some(FormText(s)) => s
    case Some(FormFile(_)) => "[object File]"
  }

  /** JSON.parse(formData.get(name) as string). */
  function ParseField(v: Option<FormValue>): Result<Json, Thrown> {
    match Parse(RawText(v))
    case None => Err(ErrorThrown(JsonSyntaxError))
    case Some(j) => Ok(j)
  }

  /** An absent field parses as null; a file field throws. */
  lemma {:induction false} ParseFieldSpecial(name: string)
    ensures ParseField(None) == Ok(JNull)
    ensures ParseField(Some(FormFile(name))).Err?
  {
    NullText();
    FileText();
  }

  lemma {:induction false} NullText()
    ensures Parse("null") == Some(JNull)
  {
    var s := "null";
    assert SkipWs(s) == s;
    assert "null" <= s;
    assert ParseValue(s) == Some((JNull, ""));
  }

  /** The text a File turns into is not JSON: after the bracket comes a
      letter, which starts no value. */
  lemma {:induction false} FileText()
    ensures Parse("[object File]") == None
  {
    var s := "[object File]";
    var t := s[1..];
    assert t == "object File]";
    assert SkipWs(s) == s;
    assert SkipWs(t) == t;
    assert IntPartLength(t) == 0;
    assert ParseNumber(t) == None;
    assert ParseValue(t) == None;
    assert ParseElements(t) == None;
    assert ParseArray(t) == None;
  }

  /** !file: an absent entry or an empty text value. */
  predicate HasImage(v: Option<FormValue>) {
    v.Some? && v.value != FormText("")
  }

  /** The request gets as far as the upload: connected, configured, form
      data with a file under "image", and raw tags and agenda fields that
      are JSON. */
  predicate ReachesUpload(connect: Outcome<Thrown>, env: CloudinaryEnv, req: Request) {
    && connect.Pass? && Configured(env) && KindOf(req.contentType) == FormBody && req.form.Ok?
    && FormGet(req.form.value, "image").Some? && FormGet(req.form.value, "image").value.FormFile?
    && ParseField(FormGet(req.form.value, "tags")).Ok?
    && ParseField(FormGet(req.form.value, "agenda")).Ok?
  }

  /** The document handed to Event.create: the normalised form record with
      the uploaded image's URL, and tags and agenda as JSON.parse reads the
      raw fields, replacing whatever normalisation made of them. */
  function CreateArgument(entries: seq<(string, FormValue)>, url: string): Record
    requires ParseField(FormGet(entries, "tags")).Ok? && ParseField(FormGet(entries, "agenda")).Ok?
  {
    NormalizeRecord(FromEntries(entries))["image" := Str(url)]
      ["tags" := JsonValue(ParseField(FormGet(entries, "tags")).value)]
      ["agenda" := JsonValue(ParseField(FormGet(entries, "agenda")).value)]
  }

  /** The document carries the uploaded URL and the parsed raw lists. */
  lemma {:induction false} CreateArgumentFields(entries: seq<(string, FormValue)>, url: string)
    requires ParseField(FormGet(entries, "tags")).Ok? && ParseField(FormGet(entries, "agenda")).Ok?
    ensures var r := CreateArgument(entries, url);
      && r["tags"] == JsonValue(ParseField(FormGet(entries, "tags")).value)
      && r["agenda"] == JsonValue(ParseField(FormGet(entries, "agenda")).value)
      && r["image"] == Str(url)
  {
  }

  /** Lists the form sends as JSON arrays of strings reach Event.create as
      those lists, and the image is the uploaded URL. */
  lemma {:induction false} CreateArgumentLists(entries: seq<(string, FormValue)>, url: string, tags: seq<string>, agenda: seq<string>)
    requires FormGet(entries, "tags") == Some(FormText(StringifyStrings(tags)))
    requires FormGet(entries, "agenda") == Some(FormText(StringifyStrings(agenda)))
    ensures ParseField(FormGet(entries, "tags")) == Ok(StringArray(tags))
    ensures ParseField(FormGet(entries, "agenda")) == Ok(StringArray(agenda))
    ensures var r := CreateArgument(entries, url);
      r["tags"] == JsonValue(StringArray(tags)) && r["agenda"] == JsonValue(StringArray(agenda))
      && r["image"] == Str(url)
  {
    StringifyRoundTrip(tags);
    StringifyRoundTrip(agenda);
    ParseFieldOfText(StringifyStrings(tags), StringArray(tags));
    ParseFieldOfText(StringifyStrings(agenda), StringArray(agenda));
    CreateArgumentFields(entries, url);
  }

  lemma {:induction false} ParseFieldOfText(s: string, j: Json)
    requires Parse(s) == Some(j)
    ensures ParseField(Some(FormText(s))) == Ok(j)
  {
  }

  const NotConfigured: string := "Cloudinary is not configured"
  const UnsupportedType: string := "Unsupported Content-Type"
  const MultipartRequired: string := "Multipart form-data required for image upload"
  const ImageRequired: string := "Image is required."
  const Created: string := "Event created successfully"

  /** The TypeError reading event.mode throws when the JSON body is null. */
  const NullBodyError: string := "Cannot read properties of null (reading 'mode')"

  /** The TypeError file.arrayBuffer() throws when the image entry is text. */
  const TextImageError: string := "file.arrayBuffer is not a function"

  /** The record read from the body, and the form entries when the body was
      read as a form. */
  datatype Body = Body(event: Record, formData: Option<seq<(string, FormValue)>>)

  /** How the route reads the body: a JSON body parses to the record (null
      throws on the first field access), a form body gives its entries, any
      other content type is answered with 415. */
  function ReadBody(req: Request): (r: Result<Body, Response>)
    ensures r.Err? ==> r.error.status in {400, 415} && r.error.message == CreationFailed
    ensures var ct := if req.contentType.Some? then req.contentType.value else "";
      r.Err? && r.error.status == 415 <==>
        && !Includes(ct, "application/json")
        && !Includes(ct, "multipart/form-data")
        && !Includes(ct, "application/x-www-form-urlencoded")
    ensures r.Err? && r.error.status == 415 ==> r.error.error == Some(UnsupportedType)
    ensures KindOf(req.contentType) == JsonBody ==>
      (r.Ok? <==> Parse(req.body).Some? && Parse(req.body).value != JNull)
    ensures KindOf(req.contentType) == FormBody ==> (r.Ok? <==> req.form.Ok?)
    ensures KindOf(req.contentType) == FormBody && req.form.Err? ==> r.error.error == Some(req.form.error)
    ensures r.Ok? ==> (r.value.formData.Some? <==> KindOf(req.contentType) == FormBody)
    ensures r.Ok? && r.value.formData.Some? ==>
      r.value.formData.value == req.form.value && r.value.event == FromEntries(req.form.value)
    ensures r.Ok? && r.value.formData.None? ==> r.value.event == ObjectRecord(Parse(req.body).value)
  {
    match KindOf(req.contentType)
    case JsonBody =>
      (match Parse(req.body)
       case None => Err(Caught(ErrorThrown(JsonSyntaxError)))
       case Some(j) => if j == JNull then Err(Caught(ErrorThrown(NullBodyError)))
                       else Ok(Body(ObjectRecord(j), None)))
    case FormBody =>
      if req.form.Err? then Err(Caught(ErrorThrown(req.form.error)))
      else Ok(Body(FromEntries(req.form.value), Some(req.form.value)))
    case OtherBody => Err(Response(415, CreationFailed, Some(UnsupportedType)))
  }

  /** Connected to the database, with the Cloudinary settings in place. */
  predicate Ready(connect: Outcome<Thrown>, env: CloudinaryEnv) {
    connect.Pass? && Configured(env)
  }

  /** POST /api/events. connect is how connectDB ends, env the Cloudinary
      settings, upload how the image upload ends (the secure URL or what it
      rejects with) and create how Event.create ends (its validation and
      hooks included). Besides the response it reports whether the upload
      was attempted and the document handed to Event.create, if any. Every
      error thrown on the way is answered by the catch-all with 400. */
  method Post(connect: Outcome<Thrown>, env: CloudinaryEnv, req: Request,
              upload: Result<string, Thrown>, create: Outcome<Thrown>)
    returns (resp: Response, uploaded: bool, created: Option<Record>)
    ensures resp.status in {201, 400, 415, 500}
    ensures resp.status == 500 <==> connect.Pass? && !Configured(env)
    ensures connect.Fail? ==> resp == Caught(connect.error)
    ensures connect.Pass? && !Configured(env) ==> resp == Response(500, CreationFailed, Some(NotConfigured))
    ensures Ready(connect, env) && ReadBody(req).Err? ==> resp == ReadBody(req).error
    ensures Ready(connect, env) && ReadBody(req).Ok? && KindOf(req.contentType) == JsonBody ==>
      resp == Response(400, CreationFailed, Some(MultipartRequired))
    ensures Ready(connect, env) && KindOf(req.contentType) == FormBody && req.form.Ok? ==>
      FormVerdict(req.form.value, upload, create, resp)
    ensures uploaded <==> ReachesUpload(connect, env, req)
    ensures created.Some? <==> uploaded && upload.Ok?
    ensures created.Some? ==> created.value == CreateArgument(req.form.value, upload.value)
    ensures resp.status == 201 <==> created.Some? && create.Pass?
    ensures uploaded && upload.Err? ==> resp == Caught(upload.error)
    ensures created.Some? && create.Fail? ==> resp == Caught(create.error)
  {
    if connect.Fail? {
      return Caught(connect.error), false, None;
    }
    if !Configured(env) {
      return Response(500, CreationFailed, Some(NotConfigured)), false, None;
    }
    var body := ReadBody(req);
    if body.Err? {
      return body.error, false, None;
    }
    var event := NormalizeEvent(body.value.event);
    if body.value.formData.None? {
      return Response(400, CreationFailed, Some(MultipartRequired)), false, None;
    }
    resp, uploaded, created := PostForm(body.value.formData.value, event, upload, create);
  }

  /** The response the form part gives for the entries and the two outcomes:
      "Image is required." without an image, else the catch-all for the
      first of JSON.parse of tags, JSON.parse of agenda, reading a text
      image as a file, the upload and Event.create that throws, else 201. */
  predicate FormVerdict(entries: seq<(string, FormValue)>, upload: Result<string, Thrown>,
                        create: Outcome<Thrown>, resp: Response)
  {
    var file := FormGet(entries, "image");
    var tags := ParseField(FormGet(entries, "tags"));
    var agenda := ParseField(FormGet(entries, "agenda"));
    if !HasImage(file) then resp == Response(400, ImageRequired, None)
    else if tags.Err? then resp == Caught(tags.error)
    else if agenda.Err? then resp == Caught(agenda.error)
    else if file.value.FormText? then resp == Caught(ErrorThrown(TextImageError))
    else if upload.Err? then resp == Caught(upload.error)
    else if create.Fail? then resp == Caught(create.error)
    else resp == Response(201, Created, None)
  }

  /** The form part of POST once the record is normalised: the image check,
      JSON.parse of the raw tags and agenda, the upload and Event.create. */
  method PostForm(entries: seq<(string, FormValue)>, event: Record,
                  upload: Result<string, Thrown>, create: Outcome<Thrown>)
    returns (resp: Response, uploaded: bool, created: Option<Record>)
    ensures FormVerdict(entries, upload, create, resp)
    ensures uploaded <==>
      && FormGet(entries, "image").Some? && FormGet(entries, "image").value.FormFile?
      && ParseField(FormGet(entries, "tags")).Ok? && ParseField(FormGet(entries, "agenda")).Ok?
    ensures created.Some? <==> uploaded && upload.Ok?
    ensures created.Some? ==>
      (created.value == event["image" := Str(upload.value)]
         ["tags" := JsonValue(ParseField(FormGet(entries, "tags")).value)]
         ["agenda" := JsonValue(ParseField(FormGet(entries, "agenda")).value)])
    ensures uploaded && upload.Err? ==> resp == Caught(upload.error)
    ensures created.Some? && create.Fail? ==> resp == Caught(create.error)
  {
    uploaded, created := false, None;
    var file := FormGet(entries, "image");
    if !HasImage(file) {
      return Response(400, ImageRequired, None), false, None;
    }
    var tags := ParseField(FormGet(entries, "tags"));
    if tags.Err? {
      return Caught(tags.error), false, None;
    }
    var agenda := ParseField(FormGet(entries, "agenda"));
    if agenda.Err? {
      return Caught(agenda.error), false, None;
    }
    if file.value.FormText? {
      return Caught(ErrorThrown(TextImageError)), false, None;
    }
    uploaded := true;
    if upload.Err? {
      return Caught(upload.error), true, None;
    }
    var stored := event["image" := Str(upload.value)];
    created := Some(stored["tags" := JsonValue(tags.value)]["agenda" := JsonValue(agenda.value)]);
    if create.Fail? {
      return Caught(create.error), true, created;
    }
    return Response(201, Created, None), true, created;
  }

  // ---------------------------------------------------------------------
  // GET

  /** A stored event with its creation time. */
  datatype StoredEvent = StoredEvent(createdAt: int, fields: Record)

  predicate NewestFirst(xs: seq<StoredEvent>) {
    forall i, j :: 0 <= i < j < |xs| ==> xs[i].createdAt >= xs[j].createdAt
  }

  function InsertNewestFirst(x: StoredEvent, xs: seq<StoredEvent>): (r: seq<StoredEvent>)
    requires NewestFirst(xs)
    ensures NewestFirst(r)
    ensures multiset(r) == multiset(xs) + multiset{x}
    ensures r != [] && (r[0] == x || (xs != [] && r[0] == xs[0]))
  {
    if xs == [] || x.createdAt >= xs[0].createdAt then
      NewestFirstCons(x, xs);
      [x] + xs
    else
      var rest := InsertNewestFirst(x, xs[1..]);
      assert xs == [xs[0]] + xs[1..];
      NewestFirstCons(xs[0], rest);
      [xs[0]] + rest
  }

  /** An event no older than the head of a newest-first list can go in front. */
  lemma {:induction false} NewestFirstCons(h: StoredEvent, xs: seq<StoredEvent>)
    requires NewestFirst(xs) && (xs == [] || h.createdAt >= xs[0].createdAt)
    ensures NewestFirst([h] + xs)
  {
    var r := [h] + xs;
    forall i, j | 0 <= i < j < |r| ensures r[i].createdAt >= r[j].createdAt {
      assert r[j] == xs[j - 1];
      if i > 0 {
        assert r[i] == xs[i - 1];
      }
    }
  }

  /** The order of sort({ createdAt: -1 }): newest first, same events. */
  function SortNewestFirst(xs: seq<StoredEvent>): (r: seq<StoredEvent>)
    ensures NewestFirst(r)
    ensures multiset(r) == multiset(xs)
  {
    if xs == [] then []
    else
      assert xs == [xs[0]] + xs[1..];
      InsertNewestFirst(xs[0], SortNewestFirst(xs[1..]))
  }

  /** POST as the module is written: connectDB is undefined, so the first
      statement of the try block throws, and every request gets the
      catch-all 400 without its body being read, an upload or Event.create. */
  method PostAsWritten(env: CloudinaryEnv, req: Request, upload: Result<string, Thrown>,
                       create: Outcome<Thrown>)
    returns (resp: Response, uploaded: bool, created: Option<Record>)
    ensures resp == Response(400, CreationFailed, Some(ConnectNotAFunction))
    ensures !uploaded && created.None?
  {
    resp, uploaded, created := Post(Fail(ErrorThrown(ConnectNotAFunction)), env, req, upload, create);
  }

  /** GET as the module is written: connectDB is undefined, so every request
      gets the 500 response and no events. */
  method GetAsWritten(find: Result<seq<StoredEvent>, Thrown>) returns (resp: Response, events: seq<StoredEvent>)
    ensures resp == Response(500, "event fatching failed", None) && events == []
  {
    resp, events := Get(Fail(ErrorThrown(ConnectNotAFunction)), find);
  }

  /** GET /api/events. connect is how connectDB ends, find what the query
      returns (the events in storage order) or throws. */
  method Get(connect: Outcome<Thrown>, find: Result<seq<StoredEvent>, Thrown>)
    returns (resp: Response, events: seq<StoredEvent>)
    ensures connect.Pass? && find.Ok? ==>
      resp == Response(200, "event fetch succesfully", None)
      && NewestFirst(events) && multiset(events) == multiset(find.value)
    ensures connect.Fail? || find.Err? ==>
      resp == Response(500, "event fatching failed", None) && events == []
  {
    if connect.Fail? || find.Err? {
      return Response(500, "event fatching failed", None), [];
    }
    events := SortNewestFirst(find.value);
    resp := Response(200, "event fetch succesfully", None);
  }
}

=== FILE: home_page.dfy ===
/** The home page's choice of the base URL it fetches the event list from. */
module HomePage {
  import opened Wrappers
  import opened Text

  /** The URL used when no base URL is configured. */
  const LocalUrl: string := "http://localhost:3000"

  predicate HasScheme(s: string) {
    StartsWith(s, "http://") || StartsWith(s, "https://")
  }

  /** An environment value counts when it is present and not empty. */
  predicate Truthy(v: Option<string>) {
    v.Some? && v.value != ""
  }

  /** NEXT_PUBLIC_BASE_URL || VERCEL_URL: the first value that counts, else
      the second as it is. */
  function BaseUrl(publicBase: Option<string>, vercelUrl: Option<string>): (r: Option<string>)
    ensures Truthy(r) <==> Truthy(publicBase) || Truthy(vercelUrl)
    ensures Truthy(publicBase) ==> r == publicBase
    ensures !Truthy(publicBase) ==> r == vercelUrl
  {
    if Truthy(publicBase) then publicBase else vercelUrl
  }

  /** normalizeBaseUrl. */
  function NormalizeBaseUrl(value: Option<string>): (r: string)
    ensures HasScheme(r)
    ensures !Truthy(value) ==> r == LocalUrl
    ensures Truthy(value) ==> |value.value| <= |r| && r[|r| - |value.value|..] == value.value
  {
    if !Truthy(value) then LocalUrl
    else if HasScheme(value.value) then value.value
    else
      var r := "https://" + value.value;
      assert r[|r| - |value.value|..] == value.value;
      r
  }

  /** A configured value is kept when it has a scheme and gets https://
      in front when it has none; it is never dropped. */
  lemma {:induction false} NormalizeBaseUrlKeeps(v: string)
    requires v != ""
    ensures HasScheme(v) ==> NormalizeBaseUrl(Some(v)) == v
    ensures !HasScheme(v) ==> NormalizeBaseUrl(Some(v)) == "https://" + v
  {
  }

  /** Normalising a normalised URL changes nothing. */
  lemma {:induction false} NormalizeBaseUrlIdempotent(value: Option<string>)
    ensures NormalizeBaseUrl(Some(NormalizeBaseUrl(value))) == NormalizeBaseUrl(value)
  {
    var r := NormalizeBaseUrl(value);
    assert r != "" by {
      assert "http://" <= r || "https://" <= r;
    }
  }
}

=== FILE: json.dfy ===
/** JSON values as JSON.parse produces them, a parser for JSON text (the
    grammar of ECMA-404 that JSON.parse accepts), and JSON.stringify for the
    one shape the application serialises: an array of strings. */
module Json {
  import opened Wrappers
  import opened Text

  /** A parsed JSON value. Numbers keep their source text; objects keep their
      members in source order. */
  datatype Json =
    | JNull
    | JBool(b: bool)
    | JNumber(lexeme: string)
    | JString(s: string)
    | JArray(items: seq<Json>)
    | JObject(members: seq<(string, Json)>)

  /** The four characters JSON allows between tokens. */
  predicate IsJsonSpace(c: char) {
    c == ' ' || c == '\t' || c == '\n' || c == '\r'
  }

  function SkipWs(s: string): (r: string)
    ensures |r| <= |s|
    ensures r == [] || !IsJsonSpace(r[0])
  {
    if s != [] && IsJsonSpace(s[0]) then SkipWs(s[1..]) else s
  }

  /** The number of decimal digits at the start of s. */
  function DigitRun(s: string): (n: nat)
    ensures n <= |s|
  {
    if s != [] && IsDigit(s[0]) then 1 + DigitRun(s[1..]) else 0
  }

  /** Length of the integer part 0 | [1-9][0-9]*, or 0 when there is none. */
  function IntPartLength(s: string): (n: nat)
    ensures n <= |s|
  {
    if s == [] then 0
    else if s[0] == '0' then 1
    else if '1' <= s[0] <= '9' then 1 + DigitRun(s[1..])
    else 0
  }

  /** Length of an optional fraction .[0-9]+; None when a '.' has no digits. */
  function FractionLength(s: string): (r: Option<nat>)
    ensures r.Some? ==> r.value <= |s|
  {
    if s != [] && s[0] == '.' then
      var d := DigitRun(s[1..]);
      if d == 0 then None else Some(1 + d)
    else Some(0)
  }

  /** Length of an optional exponent [eE][+-]?[0-9]+; None when it has no digits. */
  function ExponentLength(s: string): (r: Option<nat>)
    ensures r.Some? ==> r.value <= |s|
  {
    if s != [] && (s[0] == 'e' || s[0] == 'E') then
      var sign := if |s| > 1 && (s[1] == '+' || s[1] == '-') then 1 else 0;
      var d := DigitRun(s[1 + sign..]);
      if d == 0 then None else Some(1 + sign + d)
    else Some(0)
  }

  /** A number token -?int frac? exp? at the start of s. */
  function ParseNumber(s: string): (r: Option<(Json, string)>)
    ensures r.Some? ==> |r.value.1| < |s| && r.value.0.JNumber?
  {
    var sign := if s != [] && s[0] == '-' then 1 else 0;
    var i := IntPartLength(s[sign..]);
    if i == 0 then None
    else
      var f :- FractionLength(s[sign + i..]);
      var e :- ExponentLength(s[sign + i + f..]);
      var n := sign + i + f + e;
      Some((JNumber(s[..n]), s[n..]))
  }

  function HexValue(c: char): (r: Option<nat>)
    ensures r.Some? ==> r.value < 16
  {
    if '0' <= c <= '9' then Some(c as int - '0' as int)
    else if 'a' <= c <= 'f' then Some(c as int - 'a' as int + 10)
    else if 'A' <= c <= 'F' then Some(c as int - 'A' as int + 10)
    else None
  }

  /** The value of four hexadecimal digits. */
  function Hex4(s: string): (r: Option<nat>)
    requires |s| == 4
    ensures r.Some? ==> r.value < 0x1_0000
  {
    var a :- HexValue(s[0]);
    var b :- HexValue(s[1]);
    var c :- HexValue(s[2]);
    var d :- HexValue(s[3]);
    Some(a * 0x1000 + b * 0x100 + c * 0x10 + d)
  }

  /** The character an escape sequence stands for; s starts after the backslash. */
  function ParseEscape(s: string): (r: Option<(char, string)>)
    ensures r.Some? ==> |r.value.1| < |s|
  {
    if s == [] then None
    else if s[0] == '"' then Some(('"', s[1..]))
    else if s[0] == '\\' then Some(('\\', s[1..]))
    else if s[0] == '/' then Some(('/', s[1..]))
    else if s[0] == 'b' then Some(('\U{8}', s[1..]))
    else if s[0] == 'f' then Some(('\U{C}', s[1..]))
    else if s[0] == 'n' then Some(('\n', s[1..]))
    else if s[0] == 'r' then Some(('\r', s[1..]))
    else if s[0] == 't' then Some(('\t', s[1..]))
    else if s[0] == 'u' && |s| >= 5 then
      var v :- Hex4(s[1..5]);
      if 0xD800 <= v <= 0xDFFF then None else Some((v as char, s[5..]))
    else None
  }

  /** The characters of a string literal up to its closing quote; s starts
      after the opening quote, and the rest after the closing one is returned. */
  function ParseStringBody(s: string): (r: Option<(string, string)>)
    ensures r.Some? ==> |r.value.1| < |s|
  {
    if s == [] then None
    else if s[0] == '"' then Some(("", s[1..]))
    else if s[0] == '\\' then
      var e :- ParseEscape(s[1..]);
      var t :- ParseStringBody(e.1);
      Some(([e.0] + t.0, t.1))
    else if s[0] < ' ' then None
    else
      var t :- ParseStringBody(s[1..]);
      Some(([s[0]] + t.0, t.1))
  }

  /** One JSON value at the very start of s, and the text after it. */
  function ParseValue(s: string): (r: Option<(Json, string)>)
    ensures r.Some? ==> |r.value.1| < |s|
    ensures r.Some? && r.value.0.JArray? ==> s[0] == '['
    decreases |s|, 0
  {
    if s == [] then None
    else if s[0] == '{' then ParseObject(s[1..])
    else if s[0] == '[' then ParseArray(s[1..])
    else if s[0] == '"' then
      var t :- ParseStringBody(s[1..]);
      Some((JString(t.0), t.1))
    else if "null" <= s then Some((JNull, s[4..]))
    else if "true" <= s then Some((JBool(true), s[4..]))
    else if "false" <= s then Some((JBool(false), s[5..]))
    else ParseNumber(s)
  }

  /** The rest of an array; s starts after the '['. */
  function ParseArray(s: string): (r: Option<(Json, string)>)
    ensures r.Some? ==> |r.value.1| < |s|
    decreases |s|, 2
  {
    var t := SkipWs(s);
    if t != [] && t[0] == ']' then Some((JArray([]), t[1..]))
    else
      var p :- ParseElements(t);
      Some((JArray(p.0), p.1))
  }

  /** value (ws ',' ws value)* ws ']' */
  function ParseElements(s: string): (r: Option<(seq<Json>, string)>)
    ensures r.Some? ==> |r.value.1| < |s|
    decreases |s|, 1
  {
    var v :- ParseValue(s);
    var t := SkipWs(v.1);
    if t == [] then None
    else if t[0] == ']' then Some(([v.0], t[1..]))
    else if t[0] == ',' then
      var rest :- ParseElements(SkipWs(t[1..]));
      Some(([v.0] + rest.0, rest.1))
    else None
  }

  /** The rest of an object; s starts after the '{'. */
  function ParseObject(s: string): (r: Option<(Json, string)>)
    ensures r.Some? ==> |r.value.1| < |s| && r.value.0.JObject?
    decreases |s|, 2
  {
    var t := SkipWs(s);
    if t != [] && t[0] == '}' then Some((JObject([]), t[1..]))
    else
      var p :- ParseMembers(t);
      Some((JObject(p.0), p.1))
  }

  /** string ws ':' ws value (ws ',' ws string ws ':' ws value)* ws '}' */
  function ParseMembers(s: string): (r: Option<(seq<(string, Json)>, string)>)
    ensures r.Some? ==> |r.value.1| < |s|
    decreases |s|, 1
  {
    if s == [] || s[0] != '"' then None
    else
      var k :- ParseStringBody(s[1..]);
      var t := SkipWs(k.1);
      if t == [] || t[0] != ':' then None
      else
        var v :- ParseValue(SkipWs(t[1..]));
        var u := SkipWs(v.1);
        if u == [] then None
        else if u[0] == '}' then Some(([(k.0, v.0)], u[1..]))
        else if u[0] == ',' then
          var rest :- ParseMembers(SkipWs(u[1..]));
          Some(([(k.0, v.0)] + rest.0, rest.1))
        else None
  }

  /** JSON.parse: one value with optional whitespace around it and nothing
      else. None stands for the SyntaxError JSON.parse throws. */
  function Parse(text: string): Option<Json> {
    var p :- ParseValue(SkipWs(text));
    if SkipWs(p.1) == [] then Some(p.0) else None
  }

  // ---------------------------------------------------------------------
  // JSON.stringify of an array of strings

  function HexDigit(n: nat): (c: char)
    requires n < 16
    ensures HexValue(c) == Some(n)
  {
    if n < 10 then ('0' as int + n) as char else ('a' as int + n - 10) as char
  }

  /** How JSON.stringify writes one character inside a string literal. */
  function EscapeChar(c: char): string {
    if c == '"' then "\\\""
    else if c == '\\' then "\\\\"
    else if c == '\U{8}' then "\\b"
    else if c == '\U{C}' then "\\f"
    else if c == '\n' then "\\n"
    else if c == '\r' then "\\r"
    else if c == '\t' then "\\t"
    else if c < ' ' then "\\u00" + [HexDigit(c as int / 16), HexDigit(c as int % 16)]
    else [c]
  }

  function Escape(s: string): string {
    if s == [] then "" else EscapeChar(s[0]) + Escape(s[1..])
  }

  /** A string literal: JSON.stringify of one string. */
  function Quote(s: string): string {
    "\"" + Escape(s) + "\""
  }

  /** The string literals of xs separated by commas. */
  function QuotedList(xs: seq<string>): string {
    if |xs| == 0 then ""
    else if |xs| == 1 then Quote(xs[0])
    else Quote(xs[0]) + "," + QuotedList(xs[1..])
  }

  /** JSON.stringify of an array of strings. */
  function StringifyStrings(xs: seq<string>): string {
    "[" + QuotedList(xs) + "]"
  }

  /** The JSON array whose items are the strings of xs. */
  function StringArray(xs: seq<string>): Json {
    JArray(Strings(xs))
  }

  function Strings(xs: seq<string>): (r: seq<Json>)
    ensures |r| == |xs|
    ensures forall k :: 0 <= k < |xs| ==> r[k] == JString(xs[k])
  {
    if xs == [] then [] else [JString(xs[0])] + Strings(xs[1..])
  }

  // ---------------------------------------------------------------------
  // Round trip: JSON.parse(JSON.stringify(xs)) gives back xs

  lemma {:induction false} HexEscapeRoundTrip(c: char, tail: string)
    requires c < ' '
    ensures ParseEscape(['u', '0', '0', HexDigit(c as int / 16), HexDigit(c as int % 16)] + tail)
            == Some((c, tail))
  {
    var s := ['u', '0', '0', HexDigit(c as int / 16), HexDigit(c as int % 16)] + tail;
    assert s[1..5] == ['0', '0', HexDigit(c as int / 16), HexDigit(c as int % 16)];
    assert Hex4(s[1..5]) == Some(c as int / 16 * 0x10 + c as int % 16);
    assert s[5..] == tail;
  }

  /** The characters JSON.stringify writes as a backslash and one letter. */
  predicate ShortEscaped(c: char) {
    c == '"' || c == '\\' || c == '\U{8}' || c == '\U{C}' || c == '\n' || c == '\r' || c == '\t'
  }

  lemma {:induction false} ShortEscapeRoundTrip(c: char, tail: string)
    requires ShortEscaped(c)
    ensures |EscapeChar(c)| == 2 && EscapeChar(c)[0] == '\\'
    ensures ParseEscape(EscapeChar(c)[1..] + tail) == Some((c, tail))
  {
    var e := EscapeChar(c)[1..];
    assert |e| == 1;
    assert (e + tail)[0] == e[0] && (e + tail)[1..] == tail;
  }

  /** A backslash followed by an escape that reads back as c. */
  lemma {:induction false} EscapedRoundTrip(c: char, e: string, tail: string)
    requires ParseEscape(e + tail) == Some((c, tail))
    ensures ParseStringBody(['\\'] + e + tail) ==
      (match ParseStringBody(tail)
       case None => None
       case Some(p) => Some(([c] + p.0, p.1)))
  {
    var s := ['\\'] + e + tail;
    assert s[0] == '\\' && s[1..] == e + tail;
  }

  lemma {:induction false} EscapeCharRoundTrip(c: char, tail: string)
    ensures ParseStringBody(EscapeChar(c) + tail) ==
      (match ParseStringBody(tail)
       case None => None
       case Some(p) => Some(([c] + p.0, p.1)))
  {
    if ShortEscaped(c) {
      ShortEscapeRoundTrip(c, tail);
      var e := EscapeChar(c)[1..];
      assert EscapeChar(c) + tail == ['\\'] + e + tail;
      EscapedRoundTrip(c, e, tail);
    } else if c < ' ' {
      var e := ['u', '0', '0', HexDigit(c as int / 16), HexDigit(c as int % 16)];
      assert EscapeChar(c) + tail == ['\\'] + e + tail;
      HexEscapeRoundTrip(c, tail);
      EscapedRoundTrip(c, e, tail);
    } else {
      var s := EscapeChar(c) + tail;
      assert s == [c] + tail;
      assert s[1..] == tail;
    }
  }

  lemma {:induction false} EscapeRoundTrip(x: string, tail: string)
    ensures ParseStringBody(Escape(x) + "\"" + tail) == Some((x, tail))
  {
    if x == [] {
      assert Escape(x) + "\"" + tail == "\"" + tail;
    } else {
      var rest := Escape(x[1..]) + "\"" + tail;
      assert Escape(x) + "\"" + tail == EscapeChar(x[0]) + rest;
      EscapeCharRoundTrip(x[0], rest);
      EscapeRoundTrip(x[1..], tail);
      assert [x[0]] + x[1..] == x;
    }
  }

  lemma {:induction false} QuoteRoundTrip(x: string, tail: string)
    requires tail == [] || !IsJsonSpace(tail[0])
    ensures ParseValue(Quote(x) + tail) == Some((JString(x), tail))
  {
    var s := Quote(x) + tail;
    assert s[0] == '"';
    assert s[1..] == Escape(x) + "\"" + tail;
    EscapeRoundTrip(x, tail);
  }

  /** The list of string literals starts with a quote. */
  lemma {:induction false} QuotedListStart(xs: seq<string>)
    requires |xs| >= 1
    ensures QuotedList(xs) != [] && QuotedList(xs)[0] == '"'
  {
    var q := Quote(xs[0]);
    assert q[0] == '"';
    if |xs| == 1 {
      assert QuotedList(xs) == q;
    } else {
      assert QuotedList(xs) == q + ("," + QuotedList(xs[1..]));
    }
  }

  /** A value followed directly by the closing bracket ends the elements. */
  lemma {:induction false} ElementsLast(s: string, v: Json, tail: string)
    requires ParseValue(s) == Some((v, "]" + tail))
    ensures ParseElements(s) == Some(([v], tail))
  {
    assert SkipWs("]" + tail) == "]" + tail;
    assert ("]" + tail)[1..] == tail;
  }

  /** A value followed directly by a comma and a string literal continues
      with the elements after the comma. */
  lemma {:induction false} ElementsNext(s: string, v: Json, more: string, items: seq<Json>, tail: string)
    requires ParseValue(s) == Some((v, "," + more)) && more != [] && more[0] == '"'
    requires ParseElements(more) == Some((items, tail))
    ensures ParseElements(s) == Some(([v] + items, tail))
  {
    assert SkipWs("," + more) == "," + more;
    assert ("," + more)[1..] == more;
    assert SkipWs(more) == more;
  }

  lemma {:induction false} ElementsRoundTrip(xs: seq<string>, tail: string)
    requires |xs| >= 1
    ensures ParseElements(QuotedList(xs) + "]" + tail) == Some((Strings(xs), tail))
  {
    var s := QuotedList(xs) + "]" + tail;
    if |xs| == 1 {
      assert s == Quote(xs[0]) + ("]" + tail);
      QuoteRoundTrip(xs[0], "]" + tail);
      ElementsLast(s, JString(xs[0]), tail);
      assert Strings(xs) == [JString(xs[0])];
    } else {
      var more := QuotedList(xs[1..]) + "]" + tail;
      assert s == Quote(xs[0]) + ("," + more);
      QuoteRoundTrip(xs[0], "," + more);
      QuotedListStart(xs[1..]);
      ElementsRoundTrip(xs[1..], tail);
      ElementsNext(s, JString(xs[0]), more, Strings(xs[1..]), tail);
      assert Strings(xs) == [JString(xs[0])] + Strings(xs[1..]);
    }
  }

  /** An opening bracket followed by elements that end the text parses as
      the array of those elements. */
  lemma {:induction false} ArrayOf(body: string, items: seq<Json>)
    requires body != [] && body[0] == '"' && ParseElements(body) == Some((items, ""))
    ensures Parse("[" + body) == Some(JArray(items))
  {
    var s := "[" + body;
    assert SkipWs(s) == s;
    assert s[1..] == body;
    assert SkipWs(body) == body;
    assert ParseArray(body) == Some((JArray(items), ""));
  }

  lemma {:induction false} StringifyRoundTrip(xs: seq<string>)
    ensures Parse(StringifyStrings(xs)) == Some(StringArray(xs))
  {
    if xs == [] {
      var s := StringifyStrings(xs);
      assert s == "[]" && s[1..] == "]";
      assert SkipWs(s) == s;
      assert SkipWs("]") == "]";
      assert ParseArray("]") == Some((JArray([]), ""));
    } else {
      var body := QuotedList(xs) + "]";
      assert StringifyStrings(xs) == "[" + body;
      assert body == QuotedList(xs) + "]" + "";
      QuotedListStart(xs);
      ElementsRoundTrip(xs, "");
      ArrayOf(body, Strings(xs));
    }
  }
}

=== FILE: mongodb.dfy ===
/** What the application imports from lib/mongodb.ts. The module exports
    connectToDatabase by name only; how a connection attempt ends is a
    parameter of the operations that connect. */
module MongoDb {

  /** The TypeError `await connectDB()` throws where a module takes the
      default export of lib/mongodb.ts, which has none, so connectDB is
      undefined. */
  const ConnectNotAFunction: string := "connectDB is not a function"
}

=== FILE: text.dfy ===
/** The string operations of the JavaScript runtime that the application relies
    on: trim, the whitespace class, lower-casing, prefix and substring tests,
    and splitting on single-character separators. */
module Text {

  /** The characters that String.prototype.trim removes and that the regular
      expression class \s matches: WhiteSpace and LineTerminator of ECMA-262. */
  predicate IsSpace(c: char) {
    || c == '\t' || c == '\n' || c == '\U{B}' || c == '\U{C}' || c == '\r' || c == ' '
    || c == '\U{A0}' || c == '\U{1680}' || ('\U{2000}' <= c <= '\U{200A}')
    || c == '\U{2028}' || c == '\U{2029}' || c == '\U{202F}' || c == '\U{205F}'
    || c == '\U{3000}' || c == '\U{FEFF}'
  }

  /** An ASCII decimal digit, the class \d. */
  predicate IsDigit(c: char) {
    '0' <= c <= '9'
  }

  predicate AllSpace(s: string) {
    forall i :: 0 <= i < |s| ==> IsSpace(s[i])
  }

  /** Neither the first nor the last character is whitespace. */
  predicate Trimmed(s: string) {
    s == [] || (!IsSpace(s[0]) && !IsSpace(s[|s| - 1]))
  }

  function TrimStart(s: string): (r: string)
    ensures |r| <= |s| && r == s[|s| - |r|..]
    ensures AllSpace(s[..|s| - |r|])
    ensures r == [] || !IsSpace(r[0])
  {
    if s != [] && IsSpace(s[0]) then
      var r := TrimStart(s[1..]);
      var w, w' := s[..|s| - |r|], s[1..][..|s| - 1 - |r|];
      forall i | 0 <= i < |w|
        ensures IsSpace(w[i])
      {
        if i > 0 {
          assert w[i] == w'[i - 1];
        }
      }
      r
    else s
  }

  function TrimEnd(s: string): (r: string)
    ensures |r| <= |s| && r == s[..|r|]
    ensures AllSpace(s[|r|..])
    ensures r == [] || !IsSpace(r[|r| - 1])
  {
    if s != [] && IsSpace(s[|s| - 1]) then
      var r := TrimEnd(s[..|s| - 1]);
      var w, w' := s[|r|..], s[..|s| - 1][|r|..];
      forall i | 0 <= i < |w|
        ensures IsSpace(w[i])
      {
        if i < |w'| {
          assert w[i] == w'[i];
        }
      }
      r
    else s
  }

  /** String.prototype.trim. */
  function Trim(s: string): (r: string)
    ensures Trimmed(r) && |r| <= |s|
  {
    TrimEnd(TrimStart(s))
  }

  lemma {:induction false} TrimStartAllSpace(s: string)
    requires AllSpace(s)
    ensures TrimStart(s) == []
  {
  }

  lemma {:induction false} TrimStartPadded(w: string, y: string)
    requires AllSpace(w)
    ensures TrimStart(w + y) == TrimStart(y)
  {
    if w != [] {
      assert (w + y)[1..] == w[1..] + y;
      TrimStartPadded(w[1..], y);
    } else {
      assert w + y == y;
    }
  }

  lemma {:induction false} TrimEndPadded(y: string, w: string)
    requires AllSpace(w)
    ensures TrimEnd(y + w) == TrimEnd(y)
  {
    if w != [] {
      assert (y + w)[..|y + w| - 1] == y + w[..|w| - 1];
      TrimEndPadded(y, w[..|w| - 1]);
    } else {
      assert y + w == y;
    }
  }

  /** A string without surrounding whitespace is its own trim. */
  lemma {:induction false} TrimOfTrimmed(s: string)
    requires Trimmed(s)
    ensures Trim(s) == s
  {
  }

  /** Trimming removes exactly the whitespace around the text. */
  lemma {:induction false} TrimPadded(w1: string, x: string, w2: string)
    requires AllSpace(w1) && AllSpace(w2) && Trimmed(x)
    ensures Trim(w1 + x + w2) == x
  {
    assert w1 + x + w2 == w1 + (x + w2);
    TrimStartPadded(w1, x + w2);
    if x == [] {
      assert x + w2 == w2;
      TrimStartAllSpace(w2);
    } else {
      assert TrimStart(x + w2) == x + w2;
      TrimEndPadded(x, w2);
    }
  }

  /** A string trims to nothing exactly when it is all whitespace. */
  lemma {:induction false} TrimEmptyIff(s: string)
    ensures Trim(s) == [] <==> AllSpace(s)
  {
    var t := TrimStart(s);
    if Trim(s) == [] {
      assert t == [];
      assert s == s[..|s| - |t|];
    } else if AllSpace(s) {
      TrimStartAllSpace(s);
    }
  }

  /** Every character of the trimmed string occurs in the original. */
  lemma {:induction false} TrimChars(s: string, c: char)
    requires c in Trim(s)
    ensures c in s
  {
    var t := TrimStart(s);
    SliceChars(s, |s| - |t|, t, TrimEnd(t), c);
  }

  lemma {:induction false} SliceChars(s: string, d: nat, t: string, r: string, c: char)
    requires d <= |s| && t == s[d..] && |r| <= |t| && r == t[..|r|] && c in r
    ensures c in s
  {
    var i :| 0 <= i < |r| && r[i] == c;
    assert s[d + i] == c;
  }

  /** The trimmed string sits between two runs of whitespace of the original. */
  lemma {:induction false} SplitLeading(s: string) returns (pre: string)
    ensures s == pre + TrimStart(s) && AllSpace(pre)
  {
    var t := TrimStart(s);
    var k := |s| - |t|;
    pre := s[..k];
    assert t == s[k..];
    assert s == s[..k] + s[k..];
  }

  lemma {:induction false} SplitTrailing(t: string) returns (post: string)
    ensures t == TrimEnd(t) + post && AllSpace(post)
  {
    var r := TrimEnd(t);
    post := t[|r|..];
  }

  /** Every string is its trimmed form between two runs of whitespace. */
  lemma {:induction false} TrimDecompose(s: string) returns (pre: string, post: string)
    ensures s == pre + Trim(s) + post && AllSpace(pre) && AllSpace(post)
  {
    pre := SplitLeading(s);
    post := SplitTrailing(TrimStart(s));
    Regroup(s, pre, TrimStart(s), Trim(s), post);
  }

  lemma {:induction false} Regroup(s: string, pre: string, t: string, r: string, post: string)
    requires s == pre + t && t == r + post
    ensures s == pre + r + post
  {
  }

  /** ASCII case mapping of one character. */
  function LowerChar(c: char): char {
    if 'A' <= c <= 'Z' then (c as int + 32) as char else c
  }

  /** String.prototype.toLowerCase restricted to the ASCII letters. */
  function ToLower(s: string): (r: string)
    ensures |r| == |s|
    ensures forall i :: 0 <= i < |s| ==> r[i] == LowerChar(s[i])
  {
    seq(|s|, i requires 0 <= i < |s| => LowerChar(s[i]))
  }

  lemma {:induction false} LowerCharSpace(c: char)
    ensures IsSpace(LowerChar(c)) <==> IsSpace(c)
  {
  }

  /** Lower-casing a lower-cased string changes nothing. */
  lemma {:induction false} ToLowerTwice(s: string)
    ensures ToLower(ToLower(s)) == ToLower(s)
  {
    forall i | 0 <= i < |s| ensures ToLower(ToLower(s))[i] == ToLower(s)[i] {
      assert ToLower(s)[i] == LowerChar(s[i]);
    }
  }

  /** Trimming and lower-casing commute. */
  lemma {:induction false} TrimLower(s: string)
    ensures Trim(ToLower(s)) == ToLower(Trim(s))
  {
    TrimStartLower(s);
    TrimEndLower(TrimStart(s));
  }

  lemma {:induction false} TrimStartLower(s: string)
    ensures TrimStart(ToLower(s)) == ToLower(TrimStart(s))
    decreases |s|
  {
    if s != [] {
      LowerCharSpace(s[0]);
      if IsSpace(s[0]) {
        assert ToLower(s)[1..] == ToLower(s[1..]);
        TrimStartLower(s[1..]);
      }
    }
  }

  lemma {:induction false} TrimEndLower(s: string)
    ensures TrimEnd(ToLower(s)) == ToLower(TrimEnd(s))
    decreases |s|
  {
    if s != [] {
      LowerCharSpace(s[|s| - 1]);
      if IsSpace(s[|s| - 1]) {
        assert ToLower(s)[..|s| - 1] == ToLower(s[..|s| - 1]);
        TrimEndLower(s[..|s| - 1]);
      }
    }
  }

  /** Lower-casing keeps a trimmed string trimmed and leaves no upper-case
      ASCII letter. */
  lemma {:induction false} LowerTrimmed(u: string)
    requires Trimmed(u)
    ensures Trimmed(ToLower(u))
    ensures forall i :: 0 <= i < |u| ==> !('A' <= ToLower(u)[i] <= 'Z')
  {
    if u != [] {
      LowerCharSpace(u[0]);
      LowerCharSpace(u[|u| - 1]);
    }
  }

  /** String.prototype.startsWith. */
  predicate StartsWith(s: string, prefix: string) {
    prefix <= s
  }

  /** String.prototype.includes. */
  predicate Includes(s: string, sub: string) {
    exists i :: 0 <= i <= |s| && OccursAt(s, sub, i)
  }

  predicate OccursAt(s: string, sub: string, i: nat)
    requires i <= |s|
  {
    sub <= s[i..]
  }

  /** A one-character string occurs in s exactly when that character does. */
  lemma {:induction false} IncludesChar(s: string, c: char)
    ensures Includes(s, [c]) <==> c in s
  {
    if c in s {
      var i :| 0 <= i < |s| && s[i] == c;
      assert OccursAt(s, [c], i);
    }
    if Includes(s, [c]) {
      var i :| 0 <= i <= |s| && OccursAt(s, [c], i);
      assert s[i] == c;
    }
  }

  /** How many characters of s belong to seps. */
  function CountIn(s: string, seps: set<char>): nat {
    if s == [] then 0 else (if s[0] in seps then 1 else 0) + CountIn(s[1..], seps)
  }

  predicate Avoids(s: string, seps: set<char>) {
    forall i :: 0 <= i < |s| ==> s[i] !in seps
  }

  /** String.prototype.split with a separator that matches one character of
      seps: the pieces between separators, empty ones included. */
  function Split(s: string, seps: set<char>): (r: seq<string>)
    ensures |r| == CountIn(s, seps) + 1
    ensures forall k :: 0 <= k < |r| ==> Avoids(r[k], seps)
  {
    if s == [] then [""]
    else
      var rest := Split(s[1..], seps);
      if s[0] in seps then [""] + rest
      else [[s[0]] + rest[0]] + rest[1..]
  }

  /** Array.prototype.join with a one-character separator. */
  function Join(xs: seq<string>, sep: char): string {
    if |xs| == 0 then ""
    else if |xs| == 1 then xs[0]
    else xs[0] + [sep] + Join(xs[1..], sep)
  }

  lemma {:induction false} SplitPrefix(p: string, tail: string, seps: set<char>)
    requires Avoids(p, seps)
    ensures Split(p + tail, seps) == [p + Split(tail, seps)[0]] + Split(tail, seps)[1..]
  {
    if p == [] {
      var t := Split(tail, seps);
      assert p + tail == tail;
      assert p + t[0] == t[0];
      assert t == [t[0]] + t[1..];
    } else {
      var t := Split(tail, seps);
      assert (p + tail)[0] == p[0];
      assert (p + tail)[1..] == p[1..] + tail;
      SplitPrefix(p[1..], tail, seps);
      var r := Split(p[1..] + tail, seps);
      assert r[0] == p[1..] + t[0] && r[1..] == t[1..];
      assert [p[0]] + r[0] == p + t[0];
    }
  }

  /** Splitting a join of separator-free pieces gives back the pieces. */
  lemma {:induction false} SplitJoin(xs: seq<string>, sep: char, seps: set<char>)
    requires |xs| >= 1 && sep in seps
    requires forall k :: 0 <= k < |xs| ==> Avoids(xs[k], seps)
    ensures Split(Join(xs, sep), seps) == xs
  {
    if |xs| == 1 {
      SplitPrefix(xs[0], "", seps);
      assert xs[0] + "" == xs[0];
    } else {
      var tail := [sep] + Join(xs[1..], sep);
      assert Join(xs, sep) == xs[0] + tail;
      SplitPrefix(xs[0], tail, seps);
      SplitJoin(xs[1..], sep, seps);
      assert tail[1..] == Join(xs[1..], sep);
      assert Split(tail, seps) == [""] + xs[1..];
      assert xs[0] + "" == xs[0];
    }
  }

  /** xs with f applied to every item: Array.prototype.map. */
  function Map(f: string -> string, xs: seq<string>): (r: seq<string>)
    ensures |r| == |xs|
    ensures forall k :: 0 <= k < |xs| ==> r[k] == f(xs[k])
  {
    if xs == [] then [] else [f(xs[0])] + Map(f, xs[1..])
  }

  lemma {:induction false} MapAppend(f: string -> string, xs: seq<string>, ys: seq<string>)
    ensures Map(f, xs + ys) == Map(f, xs) + Map(f, ys)
  {
    if xs != [] {
      assert (xs + ys)[0] == xs[0];
      assert (xs + ys)[1..] == xs[1..] + ys;
      MapAppend(f, xs[1..], ys);
    } else {
      assert xs + ys == ys;
    }
  }

  /** Every item trimmed. */
  function TrimAll(xs: seq<string>): (r: seq<string>)
    ensures |r| == |xs|
    ensures forall k :: 0 <= k < |xs| ==> r[k] == Trim(xs[k])
  {
    if xs == [] then [] else [Trim(xs[0])] + TrimAll(xs[1..])
  }

  lemma {:induction false} TrimAllIsMap(xs: seq<string>)
    ensures TrimAll(xs) == Map(Trim, xs)
  {
    if xs != [] {
      TrimAllIsMap(xs[1..]);
    }
  }

  /** Keeps the non-empty strings, in order (Array.prototype.filter(Boolean)). */
  function NonEmpty(xs: seq<string>): (r: seq<string>)
    ensures |r| <= |xs|
    ensures forall k :: 0 <= k < |r| ==> r[k] != [] && r[k] in xs
  {
    if xs == [] then []
    else if xs[0] == [] then NonEmpty(xs[1..])
    else [xs[0]] + NonEmpty(xs[1..])
  }

  lemma {:induction false} NonEmptyAllEmpty(xs: seq<string>)
    ensures NonEmpty(xs) == [] <==> forall k :: 0 <= k < |xs| ==> xs[k] == []
  {
    if xs != [] {
      NonEmptyAllEmpty(xs[1..]);
      if xs[0] == [] {
        assert forall k :: 1 <= k < |xs| ==> xs[k] == xs[1..][k - 1];
      }
    }
  }

  lemma {:induction false} NonEmptyOfNonEmpty(xs: seq<string>)
    requires forall k :: 0 <= k < |xs| ==> xs[k] != []
    ensures NonEmpty(xs) == xs
  {
    if xs != [] {
      NonEmptyOfNonEmpty(xs[1..]);
    }
  }

  lemma {:induction false} TrimAllOfTrimmed(xs: seq<string>)
    requires forall k :: 0 <= k < |xs| ==> Trimmed(xs[k])
    ensures TrimAll(xs) == xs
  {
    forall k | 0 <= k < |xs| ensures TrimAll(xs)[k] == xs[k] {
      TrimOfTrimmed(xs[k]);
    }
  }

  /** The trimmed, non-empty pieces of s between separators:
      s.split(sep).map(item => item.trim()).filter(Boolean). */
  function TrimmedPieces(s: string, seps: set<char>): seq<string> {
    NonEmpty(TrimAll(Split(s, seps)))
  }

  /** Every piece is non-empty, has no surrounding whitespace and contains no
      separator, and there are at most as many pieces as separators plus one. */
  lemma {:induction false} TrimmedPiecesShape(s: string, seps: set<char>)
    ensures |TrimmedPieces(s, seps)| <= CountIn(s, seps) + 1
    ensures forall k :: 0 <= k < |TrimmedPieces(s, seps)| ==>
      var p := TrimmedPieces(s, seps)[k]; p != [] && Trimmed(p) && Avoids(p, seps)
  {
    var parts := Split(s, seps);
    var trimmed := TrimAll(parts);
    forall k | 0 <= k < |TrimmedPieces(s, seps)|
      ensures var p := TrimmedPieces(s, seps)[k]; p != [] && Trimmed(p) && Avoids(p, seps)
    {
      var p := TrimmedPieces(s, seps)[k];
      assert p in trimmed;
      var j :| 0 <= j < |trimmed| && trimmed[j] == p;
      assert p == Trim(parts[j]);
      forall i | 0 <= i < |p| ensures p[i] !in seps {
        TrimChars(parts[j], p[i]);
        var m :| 0 <= m < |parts[j]| && parts[j][m] == p[i];
      }
    }
  }

  /** No piece survives exactly when s consists of separators and whitespace. */
  lemma {:induction false} TrimmedPiecesEmptyIff(s: string, seps: set<char>)
    ensures TrimmedPieces(s, seps) == [] <==> SpaceOrSep(s, seps)
  {
    var parts := Split(s, seps);
    NonEmptyAllEmpty(TrimAll(parts));
    forall k | 0 <= k < |parts| ensures Trim(parts[k]) == [] <==> AllSpace(parts[k]) {
      TrimEmptyIff(parts[k]);
    }
    BlankPartsIff(s, seps);
  }

  predicate BlankParts(parts: seq<string>) {
    forall k :: 0 <= k < |parts| ==> AllSpace(parts[k])
  }

  predicate SpaceOrSep(s: string, seps: set<char>) {
    forall i :: 0 <= i < |s| ==> s[i] in seps || IsSpace(s[i])
  }

  lemma {:induction false} AllSpaceCons(c: char, s: string)
    ensures AllSpace([c] + s) <==> IsSpace(c) && AllSpace(s)
  {
    var w := [c] + s;
    if IsSpace(c) && AllSpace(s) {
      forall i | 0 <= i < |w| ensures IsSpace(w[i]) {
        if i > 0 { assert w[i] == s[i - 1]; }
      }
    }
    if AllSpace(w) {
      assert IsSpace(w[0]);
      forall i | 0 <= i < |s| ensures IsSpace(s[i]) {
        assert s[i] == w[i + 1];
      }
    }
  }

  lemma {:induction false} BlankPartsCons(p: string, ps: seq<string>)
    ensures BlankParts([p] + ps) <==> AllSpace(p) && BlankParts(ps)
  {
    var w := [p] + ps;
    if AllSpace(p) && BlankParts(ps) {
      forall k | 0 <= k < |w| ensures AllSpace(w[k]) {
        if k > 0 { assert w[k] == ps[k - 1]; }
      }
    }
    if BlankParts(w) {
      assert AllSpace(w[0]);
      forall k | 0 <= k < |ps| ensures AllSpace(ps[k]) {
        assert ps[k] == w[k + 1];
      }
    }
  }

  lemma {:induction false} SpaceOrSepCons(s: string, seps: set<char>)
    requires s != []
    ensures SpaceOrSep(s, seps) <==> (s[0] in seps || IsSpace(s[0])) && SpaceOrSep(s[1..], seps)
  {
    if (s[0] in seps || IsSpace(s[0])) && SpaceOrSep(s[1..], seps) {
      forall i | 0 <= i < |s| ensures s[i] in seps || IsSpace(s[i]) {
        if i > 0 { assert s[i] == s[1..][i - 1]; }
      }
    }
  }

  lemma {:induction false} BlankPartsIff(s: string, seps: set<char>)
    ensures BlankParts(Split(s, seps)) <==> SpaceOrSep(s, seps)
  {
    if s != [] {
      BlankPartsIff(s[1..], seps);
      SpaceOrSepCons(s, seps);
      var rest := Split(s[1..], seps);
      assert rest == [rest[0]] + rest[1..];
      BlankPartsCons(rest[0], rest[1..]);
      if s[0] !in seps {
        var head := [s[0]] + rest[0];
        AllSpaceCons(s[0], rest[0]);
        BlankPartsCons(head, rest[1..]);
      } else {
        BlankPartsCons("", rest);
      }
    }
  }

  /** Splitting at a separator splits the two sides independently. */
  lemma {:induction false} SplitAt(a: string, c: char, b: string, seps: set<char>)
    requires c in seps
    ensures Split(a + [c] + b, seps) == Split(a, seps) + Split(b, seps)
  {
    if a == [] {
      assert a + [c] + b == [c] + b;
      assert ([c] + b)[1..] == b;
    } else {
      var s := a + [c] + b;
      assert s[0] == a[0];
      assert s[1..] == a[1..] + [c] + b;
      SplitAt(a[1..], c, b, seps);
    }
  }

  lemma {:induction false} NonEmptyAppend(xs: seq<string>, ys: seq<string>)
    ensures NonEmpty(xs + ys) == NonEmpty(xs) + NonEmpty(ys)
  {
    if xs == [] {
      assert xs + ys == ys;
    } else {
      var zs := xs + ys;
      assert zs[0] == xs[0];
      assert zs[1..] == xs[1..] + ys;
      NonEmptyAppend(xs[1..], ys);
      if xs[0] == [] {
        assert NonEmpty(zs) == NonEmpty(zs[1..]);
      } else {
        assert NonEmpty(zs) == [xs[0]] + NonEmpty(zs[1..]);
        assert NonEmpty(xs) == [xs[0]] + NonEmpty(xs[1..]);
      }
    }
  }

  /** The pieces of a string that a separator cuts in two are the pieces of
      the part before it followed by the pieces of the part after it. */
  lemma {:induction false} TrimmedPiecesAt(a: string, c: char, b: string, seps: set<char>)
    requires c in seps
    ensures TrimmedPieces(a + [c] + b, seps) == TrimmedPieces(a, seps) + TrimmedPieces(b, seps)
  {
    SplitAt(a, c, b, seps);
    var xs, ys := Split(a, seps), Split(b, seps);
    TrimAllAppend(xs, ys);
    NonEmptyAppend(TrimAll(xs), TrimAll(ys));
  }

  lemma {:induction false} TrimAllAppend(xs: seq<string>, ys: seq<string>)
    ensures TrimAll(xs + ys) == TrimAll(xs) + TrimAll(ys)
  {
    TrimAllIsMap(xs + ys);
    TrimAllIsMap(xs);
    TrimAllIsMap(ys);
    MapAppend(Trim, xs, ys);
  }

  /** Joining separator-free, trimmed, non-empty items and taking the pieces
      again returns the same items in the same order. */
  lemma {:induction false} TrimmedPiecesOfJoin(xs: seq<string>, sep: char, seps: set<char>)
    requires sep in seps
    requires forall k :: 0 <= k < |xs| ==> xs[k] != [] && Trimmed(xs[k]) && Avoids(xs[k], seps)
    ensures TrimmedPieces(Join(xs, sep), seps) == xs
  {
    if xs == [] {
      assert Split("", seps) == [""];
      assert Trim("") == "";
      assert TrimAll([""]) == [""];
    } else {
      SplitJoin(xs, sep, seps);
      TrimAllOfTrimmed(xs);
      NonEmptyOfNonEmpty(xs);
    }
  }
}

=== FILE: wrappers.dfy ===
/** Failure-carrying result types shared by the model: an optional value, a
    value-or-error result, and a pass/fail outcome for checks that return nothing. */
module Wrappers {

  datatype Option<+T> = None | Some(value: T) {
    predicate IsFailure() { None? }
    function PropagateFailure<U>(): Option<U>
      requires None?
    {
      None
    }
    function Extract(): T
      requires Some?
    {
      value
    }
  }

  datatype Result<+T, +E> = Ok(value: T) | Err(error: E) {
    predicate IsFailure() { Err? }
    function PropagateFailure<U>(): Result<U, E>
      requires Err?
    {
      Err(error)
    }
    function Extract(): T
      requires Ok?
    {
      value
    }
  }

  /** The outcome of a step that either completes or raises an error. */
  datatype Outcome<+E> = Pass | Fail(error: E) {
    predicate IsFailure() { Fail? }
    function PropagateFailure(): Outcome<E>
      requires Fail?
    {
      this
    }
  }
}
